=== FILE: README.md ===
# Sage bot commands in Dafny

A model of the decision logic of six pieces of a Discord bot for a university
course server. Discord, the database, the clock, the random number generator
and the canvas are not modelled. What is left is the logic each command
computes from its input:

- **`poll`**: the argument parser, the emoji-labelled buttons and their rows,
  and the choice list. It also covers the `collect` handler, which
  acknowledges each vote and refuses repeat votes. The `end` handler tallies
  the votes and finds the winners, and `winMessage` words the result.
- **`leaderboard`**: the page argument, the ranking comparator and the page
  clamp and slice. It also covers the rank and exp printed for each user and
  the footer range.
- **`xkcd`**: the argument parser and the range check on a comic number. It
  also covers turning doubled brackets in the alt text back into single ones,
  and cutting an over-long footer.
- **`remind`**: the argument parser. It covers the duration check, the
  repeat words in any letter case, and the reminder record that is built.
- **`help`**: the fields of one command's help embed, and the listing of
  every command the asker may use, by category.
- **`generateLogEmbed`** in the error log: the embed's title and
  description, and its fields. It also decides when the stack trace goes to a
  file instead.

Files (one module each):

| file | module | contents |
|---|---|---|
| `wrappers.dfy` | `Wrappers` | `Option` and `Result` |
| `seqs.dfy` | `Seqs` | no-duplicates, concatenation, first occurrences |
| `text.dfy` | `Text` | JavaScript `split`/`join`, `trim`, ASCII case mapping, `parseInt`, decimal rendering, `includes` (`Mentions`), the `|`-separated command pieces |
| `embeds.dfy` | `Embeds` | embed fields |
| `poll.dfy` | `Poll` | poll argument parser, buttons, rows, choice text, result wording |
| `poll_tally.dfy` | `PollTally` | the `collect` and `end` handlers |
| `leaderboard.dfy` | `Leaderboard` | the leaderboard command |
| `xkcd.dfy` | `Xkcd` | the xkcd command |
| `remind.dfy` | `Remind` | the remind argument parser |
| `help.dfy` | `Help` | the help command |
| `error_log.dfy` | `ErrorLog` | the error log embed |

The duration library (`parse-duration`) is a parameter
`DurationParser = string -> int`. Its answer 0 stands for each of its falsy
answers (`null`, `NaN`, `0`). `getCommand`, `PREFIX` and a command's
`permissions(msg)` answer are parameters or record fields in the same way.

Some behaviour one might expect of a poll is not in its code. The model
follows the code:

- Two identical choices are not rejected. Both get a button with the same
  custom id, so their votes are counted together.
- The key that is counted is the pressed button's custom id. The poll's
  own buttons carry their choice text there. The collector's only filter is
  `interaction.isButton()`, with no channel or message filter: any button
  press the bot receives while the poll runs is counted under that
  button's id.
- Tied winners are listed in the order in which each first reached the
  winning count, not in choice order.
- The `end` handler receives every collected interaction and skips the
  non-button ones itself.

## Model

| member | source | states |
|---|---|---|
| `Poll.ParseArgs` | src/commands/fun/poll.ts:127-137 | The timespan piece is checked first. The parser's answer 0 rejects it, quoting the piece. Otherwise 3 or fewer pieces give the too-few rejection, more than 12 give the too-many one, and the arguments are accepted exactly when there are between 4 and 12 pieces. The result's question and choices are the pieces after the timespan, with 2 to 10 choices. |
| `Poll.ParseArgsOfCommand` | src/commands/fun/poll.ts:127-137 | Write a poll command out from clean pieces and parse it. With 2 to 10 choices you get the poll back. Fewer choices give the too-few rejection, more give the too-many one. |
| `Poll.TimespanCheckedFirst` | src/commands/fun/poll.ts:128-131 | A timespan that the duration parser rejects is reported, whatever follows it. |
| `Poll.Buttons` | src/commands/fun/poll.ts:17-28 | There is one button per choice. Its custom id and its label are both the choice text. The button for choice `i` carries emoji `i` of the fixed list, and no two buttons share an emoji. |
| `Poll.Rows` | src/commands/fun/poll.ts:30-31 | Concatenated, the rows give back the buttons in order. The first row holds up to five buttons, and a second row exists only beyond five. With at most ten buttons, no row is wider than five. |
| `Poll.ChoiceTextLines` | src/commands/fun/poll.ts:33-37 | When the last choice is trimmed and not empty, the choice list is exactly the `emoji choice` lines joined by newlines. The final trim removes only the last newline. |
| `Poll.WinMessage` | src/commands/fun/poll.ts:139-141 | The message starts with the options in bold, joined by `** & **`. It says "won" exactly when there is one option and "tied" exactly when there are several. It ends with the count, then "vote" for exactly one vote and "votes" otherwise, then "." for one option or " each." for several. |
| `Poll.WinMessageNames` | src/commands/fun/poll.ts:139-141 | The win message contains every option it is given and the vote count with its plural. |
| `Poll.ResultsText` | src/commands/fun/poll.ts:105-121 | The results text is the no-vote notice exactly when the winning count is 0. |
| `Poll.AnnouncementText` | src/commands/fun/poll.ts:112-120 | The announcement begins with the results text. The rest of it is exactly the link `[Click to view poll](url)` after a blank line, so it contains the poll's address. |
| `PollTally.BallotsOnePerUser` | src/commands/fun/poll.ts:84-87 | Each user is counted at most once. The users counted are exactly those who pressed a button. |
| `PollTally.BallotIsFirstPress` | src/commands/fun/poll.ts:84-87 | Every counted vote is its voter's first button press. No earlier button press by that user exists. |
| `PollTally.LaterPressesIgnored` | src/commands/fun/poll.ts:85 | Further presses by users who already voted, and interactions that are not buttons, leave the counted votes unchanged. |
| `PollTally.Collect` | src/commands/fun/poll.ts:55-72 | Interactions that are not buttons are ignored. A user already in `voted` is told so, and `voted` stays the same. Anyone else is appended, without creating a duplicate, and thanked for the choice they pressed. Whenever nothing is counted, `voted` is unchanged. |
| `PollTally.CollectAgreesWithEnd` | src/commands/fun/poll.ts:54-87 | The collect handler's `voted` list equals the list of voters the end handler counts, in the same order. An interaction is thanked as counted exactly when the end handler counts it. |
| `PollTally.TallyOfTallied` | src/commands/fun/poll.ts:84-102 | Folding the loop body over the counted keys gives the following. The vote map counts each key's ballots, and the winning count is the highest count. The winner list holds the keys in the order they reached it. |
| `PollTally.WinnersExact` | src/commands/fun/poll.ts:96-102 | The winners are exactly the keys whose count equals the winning count, each listed once. |
| `PollTally.SumIsVoters` | src/commands/fun/poll.ts:84-94 | The vote counts add up to the number of users who voted. |
| `PollTally.NoBallotsNoPresses` | src/commands/fun/poll.ts:82-98 | There are no ballots exactly when nobody pressed a button. |
| `PollTally.Tally` | src/commands/fun/poll.ts:79-103 | The loop produces all of the above. The vote map matches the ballot counts, and the winning count is the maximum. The winners are exactly the keys at that count, without duplicates. The counts sum to the number of voters, and the count is 0 exactly when there was no button press. |
| `PollTally.End` | src/commands/fun/poll.ts:79-123 | The Results field is the no-vote notice exactly when nobody voted. Otherwise there is at least one winner, and it names every choice that reached the highest count. The winners are exactly the choices with the highest count, without duplicates, in the order in which each reached that count. The Results field is the results text for those winners and that count. The announcement is that text followed by the link to the poll. |
| `Leaderboard.ParsePage` | src/commands/info/leaderboard.ts:98-100 | The page is always at least 1. It is above 1 exactly when `parseInt` reads a number above 1, and it is then that number. |
| `Leaderboard.ParsePageOfNumber` | src/commands/info/leaderboard.ts:98-100 | A page number written out reads back as itself. Numbers below 2 read as page 1. |
| `Leaderboard.CompareAgreesWithOrder` | src/commands/info/leaderboard.ts:20 | The comparator puts the higher level first. Between equal levels it puts the lower current exp first. |
| `Leaderboard.Sort` | src/commands/info/leaderboard.ts:19-20 | The sorted users are a permutation of the stored users, in ranking order. |
| `Leaderboard.RankedGlobally` | src/commands/info/leaderboard.ts:20 | In the ranking, every earlier user has at least the level of every later one. Among users of equal level, current exp never decreases. |
| `Leaderboard.PageWindowAsWritten` | src/commands/info/leaderboard.ts:22-24 | As written, a page within the list keeps its number and ends at `page * 10`. A page past the end becomes `floor(len / 10) + 1`, with no end. |
| `Leaderboard.ShownCountAsWritten` | src/commands/info/leaderboard.ts:22-26 | As written, a page within the list shows ten users, and a clamped page shows `len mod 10` users. |
| `Leaderboard.EmptyPageAsWritten` | src/commands/info/leaderboard.ts:22-26 | As written, a non-empty list whose length is a multiple of ten shows nobody on any page past its end. |
| `Leaderboard.PageWindow` | src/commands/info/leaderboard.ts:22-24 | The intended clamp gives the same window as the written one for a page within the list. A page past the end becomes `LastPage(len)`, the last page that holds a user. |
| `Leaderboard.ShownCount` | src/commands/info/leaderboard.ts:22-26 | With the intended clamp, the slice fits the list and a page shows at most ten users. For a non-empty list it shows at least one. |
| `Leaderboard.FooterRangeIsShown` | src/commands/info/leaderboard.ts:88 | The footer's upper number `end \|\| users.length` is the index just after the last user shown. |
| `Leaderboard.RankIsPosition` | src/commands/info/leaderboard.ts:33-38 | For either clamp, the rank drawn for a shown user is that user's position in the whole ranking, counted from 1. The exp drawn is that user's `levelExp - curExp`. |
| `Leaderboard.IndexOf` | src/commands/info/leaderboard.ts:80 | The asker's index is that of the first ranked user with the asker's id, and no earlier user has that id. It is absent exactly when no user has the id. |
| `Leaderboard.LinesOfWindow` | src/commands/info/leaderboard.ts:33-38 | Line `i` of a window carries rank `start + i + 1` and the id, level and missing exp of the ranked user at index `start + i`. |
| `Leaderboard.ViewAtDrawsWindow` | src/commands/info/leaderboard.ts:33-88 | A drawn view has one line for each user of the window's slice, and no more. The lines are those users in ranking order with their positions as ranks. Its footer names the page and the ranks of the first and last lines. |
| `Leaderboard.Run` | src/commands/info/leaderboard.ts:15-91 | With the clamp as written, the command fails with `AskerNotRanked` exactly when the asker has no stored user. It fails with `EmptyPage` exactly when the asker is stored, the number of users is a multiple of ten, and the page is past the end. Otherwise it draws between one and ten users, one line for each user of the clamped window's slice. Line `i` carries rank `start + i + 1` and the id, level and missing exp of the ranked user at index `start + i`, where `start` is the clamped window's start. The footer names the clamped page and the ranks of the first and last lines. Its text gives the asker's rank (the first ranked position with their id, from 1), their level and the exp they still need. |
| `Leaderboard.RunIntended` | src/commands/info/leaderboard.ts:15-91 | With the intended clamp, the command fails only when the asker has no stored user. Every page drawn holds between one and ten users, one line for each user of the window's slice. Its lines and footer are the users of the ranking from the window's start on, with their ranks, as in `Run`. The asker's text is the same as in `Run`. |
| `Leaderboard.TenUsersPageTwo` | src/commands/info/leaderboard.ts:22-26 | Ten stored users, the asker among them, asking for page 2: the written command stops on the empty page, and the intended one draws a page. |
| `Leaderboard.RunAgreesWithIntended` | src/commands/info/leaderboard.ts:22-26 | Whenever the written command does not stop on an empty page, it answers exactly what the intended one does. |
| `Xkcd.ParseArgs` | src/commands/fun/xkcd.ts:31-45 | No input asks for a random comic, and `latest` in any case asks for the newest. Any other input gives a comic number exactly when `parseInt` reads a number, and that number is the comic. The usage text is the answer exactly when the input is not empty, is not `latest` in any case, and `parseInt` reads no number. |
| `Xkcd.ParseArgsOfNumber` | src/commands/fun/xkcd.ts:40-44 | A comic number written out is read back as that comic. |
| `Xkcd.Choose` | src/commands/fun/xkcd.ts:17-26 | A comic number below 1 or above the newest one is refused with the "does not exists" text. Any other number is fetched as asked. |
| `Xkcd.UndoubleNoPair` | src/commands/fun/xkcd.ts:49 | Text without a doubled character is left alone by that character's replacement. |
| `Xkcd.UndoubleDouble` | src/commands/fun/xkcd.ts:49 | Undoubling one character undoes exactly the doubling of that character. |
| `Xkcd.CleanDouble` | src/commands/fun/xkcd.ts:48-54 | The six replacements recover any text from the same text with every bracket character doubled. |
| `Xkcd.CleanUnchanged` | src/commands/fun/xkcd.ts:48-54 | A description with no doubled bracket passes through the six replacements unchanged. |
| `Xkcd.Truncate` | src/commands/fun/xkcd.ts:55-57 | A footer of at most 2048 characters is kept whole. A longer one keeps its first 2000 characters and ends in `...` after them. |
| `Xkcd.CreateComicEmbed` | src/commands/fun/xkcd.ts:47-63 | The footer never exceeds 2048 characters, and the image is the comic's image. |
| `Xkcd.FooterOfDoubled` | src/commands/fun/xkcd.ts:48-62 | The footer of alt text written with doubled brackets is the text its author meant, cut only when it is longer than 2048 characters. |
| `Xkcd.FooterOfPlain` | src/commands/fun/xkcd.ts:48-62 | A short description with no doubled bracket becomes the footer as it is. |
| `Remind.ClassifyRepeat` | src/commands/reminders/remind.ts:23-37 | A missing or empty repeat piece means no repeat. The week words and the day words, in any case, choose the period. Anything else is rejected, quoting the piece. |
| `Remind.KelvinSignWeekly` | src/commands/reminders/remind.ts:29-31 | `WEE` followed by the Kelvin sign lower-cases to `week`, so it is accepted as a weekly repeat. |
| `Remind.ClassifyRepeatIgnoresCase` | src/commands/reminders/remind.ts:29-35 | A repeat word and its lower-case form are accepted or rejected alike, with the same period. |
| `Remind.RepeatWordAccepted` | src/commands/reminders/remind.ts:29-35 | The word stored for each period is itself accepted as that period. |
| `Remind.ParseArgs` | src/commands/reminders/remind.ts:21-46 | The duration is checked first. A missing duration, or one the parser rejects, is reported as typed. Next the repeat piece is checked, and a rejected one is reported as typed. An accepted reminder belongs to the author and holds the first piece. It is private exactly in a DM, and it expires the parsed duration after now. |
| `Remind.ParseArgsOfCommand` | src/commands/reminders/remind.ts:21-46 | Write a command out from clean pieces with an accepted duration and repeat word, then parse it. You get back the reminder it describes, whatever pieces follow. |
| `Remind.ParseArgsOneOff` | src/commands/reminders/remind.ts:29-35 | A command with only a content and a duration sets a reminder that does not repeat. |
| `Remind.DurationCheckedFirst` | src/commands/reminders/remind.ts:25-26 | A duration the parser rejects is reported, whatever the repeat piece says. |
| `Remind.DurationMissing` | src/commands/reminders/remind.ts:22-26 | A command with no `\|` has no duration and is rejected as `undefined`. |
| `Help.CommandFieldsOrdered` | src/commands/info/help.ts:20-44 | The fields come in the order Usage, Aliases, Extended Help, More commands. Aliases is present exactly when the command has an alias list. Extended Help is present exactly when the command has extended help. |
| `Help.Describe` | src/commands/info/help.ts:16-54 | An unknown name is refused with the "not a valid command" text. A known one, and only a known one, gets an embed with that command's name, description and fields. |
| `Help.Categories` | src/commands/info/help.ts:57-60 | The categories are those of the loaded commands, each listed once, in the order in which they first appear among the commands. |
| `Help.UsableIn` | src/commands/info/help.ts:63-66 | A category's usable commands are the loaded commands in that category that pass their permission check and are not disabled. |
| `Help.CategoryName` | src/commands/info/help.ts:67 | The heading of a category exists exactly when its name is not empty. `commands` is headed `General`. Any other heading is the name with its first letter upper-cased. |
| `Help.SectionsForCover` | src/commands/info/help.ts:62-73 | Every category with a usable command gets a section. |
| `Help.SectionsForNoDup` | src/commands/info/help.ts:57-73 | No category heads two sections. |
| `Help.SectionsForOrdered` | src/commands/info/help.ts:62-73 | The sections come in the order of the category list they are built from. |
| `Help.SectionsInLoadOrder` | src/commands/info/help.ts:57-73 | The listing's sections come in the order in which their categories first appear among the loaded commands. |
| `Help.ListedIffUsable` | src/commands/info/help.ts:57-74 | A command is listed exactly when the asker may use it. No section is empty, and no category appears twice. |
| `Help.ListingMentionsUsable` | src/commands/info/help.ts:56-74 | The listing text contains the line of every command the asker may use. |
| `Help.ListingText` | src/commands/info/help.ts:56-74 | The listing starts with the introduction. It fails exactly when some command has an empty category. |
| `Help.Run` | src/commands/info/help.ts:13-95 | With an argument, `run` gives that command's details. Without one it gives the listing, or nothing when the listing fails. |
| `ErrorLog.Title` | src/pieces/logs/errorLog.ts:21 | The title is the error's name, or its string form when it has no name. |
| `ErrorLog.DescriptionBounded` | src/pieces/logs/errorLog.ts:23-29 | A message under 1000 characters is shown whole. A longer one is shown by its first 950 characters. The description never exceeds 1006 characters. |
| `ErrorLog.StackParts` | src/pieces/logs/errorLog.ts:31-38 | A stack under 1000 characters is shown inline. A longer one gets a placeholder field and goes to a `js` file. A missing stack adds nothing. |
| `ErrorLog.ContextFields` | src/pieces/logs/errorLog.ts:42-47 | The message-content field and the link field are each added only when known, content first. |
| `ErrorLog.LogFieldsOrdered` | src/pieces/logs/errorLog.ts:31-47 | The fields come in the order Stack Trace, Message content, Original message. |
| `ErrorLog.LogFieldsPresent` | src/pieces/logs/errorLog.ts:23-47 | Each of the three fields is present exactly when its part of the error is. |
| `ErrorLog.StackKept` | src/pieces/logs/errorLog.ts:31-38 | A file is attached exactly when the stack has 1000 characters or more. No stack is lost: it is either in the stack field or in the file. |
| `Text.PiecesOfJoin` | src/commands/reminders/remind.ts:22 | Clean pieces joined with `\|` and then split and trimmed come back as the same pieces. |
| `Text.JoinSplit` | src/commands/fun/poll.ts:128 | Joining the pieces of a split with the separator gives back the input. |
| `Text.ParseIntOfIntToString` | src/commands/info/leaderboard.ts:99 | `parseInt` reads back the decimal rendering of any integer. This holds with any text after it, unless that text starts with a digit, or with `x` after a lone `0`. |

## Left out

- Discord I/O: sending, editing and disabling messages and buttons, direct messages, embed colours, thumbnails and timestamps. Each handler's output is modelled as data.
- The collector's timer, and the concurrency of collect events. A run of the poll is the finite sequence of interactions the collector hands over, in arrival order.
- `parse-duration` and `pretty-ms` are not part of this model: the duration is a parameter, and the "ends in" footer is not modelled.
- Remind.ParseArgs: a missing duration piece (`undefined`) is rejected without asking the parser. The library's answer for `undefined` is not part of this model.
- The reminder's delivery time text (`reminderTime`) and the Mongo insert are left out. `expires` is the millisecond number `now + duration`.
- The random comic number (`Math.random`) and the HTTP fetches are left out. `Choose` only says which comic is fetched.
- The xkcd embed title (`safe_title`, number and `moment` date) is left out, because it is date formatting.
- Xkcd.ParseArgs: the model's `toLowerCase` maps only the ASCII letters and the Kelvin sign U+212A (to `k`). Every other character it changes becomes text that holds a character outside ASCII, so a comparison with `latest` comes out the same. The lower-cased text itself is not modelled beyond that.
- Remind.ClassifyRepeat: `toLowerCase` is modelled as in `Xkcd.ParseArgs`. This is exact for the week and day words, because only the ASCII letters and the Kelvin sign lower-case to text made of ASCII letters alone. `WEE` followed by U+212A is weekly in the model as in the source (`Remind.KelvinSignWeekly`).
- Remind.ParseArgs: the repeat piece is classified by `Remind.ClassifyRepeat`, with the same case mapping.
- Text.ParseInt: `parseInt` answers a float. The model reads digit strings as exact integers, so precision loss past 2^53 is not modelled.
- Leaderboard.Sort: the order of users with equal level and equal current exp is left to the JavaScript engine, because the comparator never answers 0. The model fixes one such order.
- The leaderboard canvas, avatars and colours are left out: drawing only.
- Leaderboard.Run: `displUsers.indexOf(user)` is taken to be the user's position in the page, because the stored users are distinct objects.
- Help: `Util.splitMessage` and the DM notices are left out. The listing is the text before it is split into messages.
- Help.CategoryName: the source throws when a category name is empty. The model answers `None`, and the whole listing is then `None`.
- Help.CategoryName: `toUpperCase` is modelled for ASCII letters only. Under full Unicode case mapping `é` becomes `É`, and `ß` becomes `SS`, which also makes the heading one character longer.
- Xkcd.Truncate: lengths and the 2000-character cut are counted in Unicode characters. JavaScript counts UTF-16 code units, so text with characters outside the Basic Multilingual Plane is cut earlier by the source. Dafny strings cannot hold the lone surrogate such a cut may leave behind.
- Xkcd.CreateComicEmbed: the 2048 bound on the footer is in Unicode characters, not UTF-16 code units, as for `Truncate`.
- ErrorLog.Description: the 1000 threshold and the 950-character cut count Unicode characters, not the UTF-16 code units that `.length` and `.slice` count.
- ErrorLog.DescriptionBounded: the bounds are in Unicode characters, not UTF-16 code units, as for `Description`.
- ErrorLog.StackParts: the 1000 threshold counts Unicode characters, not UTF-16 code units.
- ErrorLog.StackKept: the attach-or-inline decision counts Unicode characters, not UTF-16 code units, as for `StackParts`.
- `sendToFile` (the name and flags of the attached file) is left out. The attachment is its content and extension.
- `modLog.ts`, `roleHandler.ts`, `warn.ts` and `togglelevelpings.ts` are not part of this model.
- Poll.Buttons and poll choice lines require at most ten choices. The parser guarantees this before `run` receives them.

## Findings

| source | as written | input that shows it | evidently intended | confidence | as-written member | corrected member |
|---|---|---|---|---|---|---|
| src/commands/info/leaderboard.ts:22 | A page past the end is clamped to `Math.floor(users.length / 10) + 1` | 10 stored users, the asker among them, and page 2. The clamp gives page 2 again, with start 10 and no end, so the slice is empty and `displUsers[0].discordId` on line 89 throws. `Run` answers `Err(EmptyPage)` there, as `Leaderboard.TenUsersPageTwo` shows | The last page that holds a user, `ceil(len / 10)` (page 1 for an empty list) | not executed | `Leaderboard.Run` | `Leaderboard.RunIntended` |

=== FILE: embeds.dfy ===
/** The parts of a Discord message embed the commands fill in. */
module Embeds {

  /** One name/value field; `inline` fields may sit side by side. */
  datatype Field = Field(name: string, value: string, inline: bool)

  /** The names of `fs`, in order. */
  function Names(fs: seq<Field>): (ns: seq<string>)
    ensures |ns| == |fs|
    ensures forall i :: 0 <= i < |fs| ==> ns[i] == fs[i].name
  {
    seq(|fs|, i requires 0 <= i < |fs| => fs[i].name)
  }
}

=== FILE: error_log.dfy ===
/** The error log embed: how an error's name, message and stack are fitted
    into an embed, and when the stack goes to an attached file instead. */
module ErrorLog {
  import opened Wrappers
  import opened Embeds

  /** A message or stack of this many characters or more is too big to be
      shown whole. */
  const SizeLimit := 1000
  /** How much of a too-big message is still shown. */
  const MessageKept := 950

  /** The parts of an error the embed reads; an absent text is empty.
      `asString` is what the error's `toString` answers. */
  datatype CommandError = CommandError(
    name: string,
    asString: string,
    message: string,
    stack: string,
    msgContent: string,
    msgLink: string)

  /** A file attached to the log message: its content and extension. */
  datatype Attachment = Attachment(content: string, extension: string)

  datatype LogEmbed = LogEmbed(title: string, description: Option<string>, fields: seq<Field>)

  function Title(e: CommandError): (t: string)
    ensures e.name != [] ==> t == e.name
    ensures e.name == [] ==> t == e.asString
  {
    if e.name != [] then e.name else e.asString
  }

  /** The message in a code block, or its first 950 characters when it has
      1000 or more; no description without a message. */
  function Description(message: string): (d: Option<string>)
    ensures d.None? <==> message == []
    ensures d.Some? && |message| < SizeLimit ==> d.value == "```\n" + message + "```"
    ensures d.Some? && |message| >= SizeLimit ==>
      d.value == "Full error message too big\n```js\n" + message[..MessageKept] + "...```"
  {
    if message == [] then None
    else if |message| < SizeLimit then Some("```\n" + message + "```")
    else Some("Full error message too big\n```js\n" + message[..MessageKept] + "...```")
  }

  /** A shown description never runs past the fixed wrapping around a
      message of at most 999 characters, and a short message can be read
      back out of it whole. */
  lemma DescriptionBounded(message: string)
    requires message != []
    ensures |Description(message).value| <= SizeLimit - 1 + 7
    ensures |message| < SizeLimit ==> Description(message).value[4..|message| + 4] == message
    ensures |message| >= SizeLimit ==>
      Description(message).value[33..33 + MessageKept] == message[..MessageKept]
  {
    var d := Description(message).value;
    if |message| < SizeLimit {
      assert d == "```\n" + message + "```";
    } else {
      var head := "Full error message too big\n```js\n";
      assert |head| == 33;
      assert d == head + message[..MessageKept] + "...```";
      assert d[33..33 + MessageKept] == message[..MessageKept];
    }
  }

  /** The stack field and attachments: a stack under 1000 characters is
      shown inline; a longer one gets a placeholder and goes to a file. */
  function StackParts(stack: string): (r: (seq<Field>, seq<Attachment>))
    ensures stack == [] ==> r == ([], [])
    ensures stack != [] ==> |r.0| == 1 && r.0[0].name == "Stack Trace" && !r.0[0].inline
    ensures |r.1| == (if |stack| >= SizeLimit then 1 else 0)
    ensures stack != [] && |stack| < SizeLimit ==> r.0[0].value == "```js\n" + stack + "```"
    ensures |stack| >= SizeLimit ==>
      r.0[0].value == "Full stack too big, sent to file." && r.1[0] == Attachment(stack, "js")
  {
    if stack == [] then ([], [])
    else if |stack| < SizeLimit then ([Field("Stack Trace", "```js\n" + stack + "```", false)], [])
    else ([Field("Stack Trace", "Full stack too big, sent to file.", false)], [Attachment(stack, "js")])
  }

  /** The fields for the message that caused the error, each only when known. */
  function ContextFields(msgContent: string, msgLink: string): (fs: seq<Field>)
    ensures |fs| == (if msgContent != [] then 1 else 0) + (if msgLink != [] then 1 else 0)
    ensures msgContent != [] ==> fs[0] == Field("Message content", "```" + msgContent + "```", false)
    ensures msgLink != [] ==> fs[|fs| - 1] == Field("Original message", "[Check for flies](" + msgLink + ")", false)
  {
    (if msgContent != [] then [Field("Message content", "```" + msgContent + "```", false)] else [])
      + (if msgLink != [] then [Field("Original message", "[Check for flies](" + msgLink + ")", false)] else [])
  }

  /** `generateLogEmbed`: the embed and the files to attach. */
  function GenerateLogEmbed(e: CommandError): (r: (LogEmbed, seq<Attachment>))
    ensures r.0.title == Title(e)
    ensures r.0.description == Description(e.message)
    ensures r.0.fields == StackParts(e.stack).0 + ContextFields(e.msgContent, e.msgLink)
    ensures r.1 == StackParts(e.stack).1
  {
    var (stackFields, files) := StackParts(e.stack);
    (LogEmbed(Title(e), Description(e.message), stackFields + ContextFields(e.msgContent, e.msgLink)), files)
  }

  /** The rank of each field name in the fixed order of the embed. */
  function FieldRank(name: string): int {
    if name == "Stack Trace" then 0
    else if name == "Message content" then 1
    else if name == "Original message" then 2
    else 3
  }

  /** The log embed's fields come in the order Stack Trace, Message
      content, Original message. */
  lemma LogFieldsOrdered(e: CommandError)
    ensures var fs := GenerateLogEmbed(e).0.fields;
      forall i, j :: 0 <= i < j < |fs| ==> FieldRank(fs[i].name) < FieldRank(fs[j].name)
  {
    var sf := StackParts(e.stack).0;
    var cf := ContextFields(e.msgContent, e.msgLink);
    assert forall i :: 0 <= i < |sf| ==> FieldRank(sf[i].name) == 0;
    assert forall i :: 0 <= i < |cf| ==> FieldRank(cf[i].name) == (if e.msgContent != [] && i == 0 then 1 else 2);
    var fs := sf + cf;
    forall i, j | 0 <= i < j < |fs|
      ensures FieldRank(fs[i].name) < FieldRank(fs[j].name)
    {
      if i < |sf| {
        assert j >= |sf| && fs[j] == cf[j - |sf|];
      } else {
        assert fs[i] == cf[i - |sf|] && fs[j] == cf[j - |sf|];
      }
    }
  }

  /** Each of the three fields is present exactly when its part of the
      error is. */
  lemma LogFieldsPresent(e: CommandError)
    ensures var ns := Names(GenerateLogEmbed(e).0.fields);
      && ("Stack Trace" in ns <==> e.stack != [])
      && ("Message content" in ns <==> e.msgContent != [])
      && ("Original message" in ns <==> e.msgLink != [])
  {
    var sf := StackParts(e.stack).0;
    var cf := ContextFields(e.msgContent, e.msgLink);
    var fs := sf + cf;
    var ns := Names(fs);
    assert Names(sf) + Names(cf) == ns;
    assert "Stack Trace" in Names(sf) <==> e.stack != [];
    assert "Stack Trace" !in Names(cf);
    assert "Message content" !in Names(sf) && "Original message" !in Names(sf);
    assert "Message content" in Names(cf) <==> e.msgContent != [] by {
      if e.msgContent != [] {
        assert Names(cf)[0] == "Message content";
      }
    }
    assert "Original message" in Names(cf) <==> e.msgLink != [] by {
      if e.msgLink != [] {
        assert Names(cf)[|cf| - 1] == "Original message";
      }
    }
  }

  /** One file is attached exactly when the stack has 1000 characters or
      more, and no part of the stack is lost: it is either in the stack
      field or in the file. */
  lemma StackKept(e: CommandError)
    ensures var (embed, files) := GenerateLogEmbed(e);
      && (|files| == 1 <==> |e.stack| >= SizeLimit)
      && (files == [] <==> |e.stack| < SizeLimit)
      && (e.stack != [] ==>
            (exists f :: f in embed.fields && f.value == "```js\n" + e.stack + "```")
            || Attachment(e.stack, "js") in files)
  {
    var fs := GenerateLogEmbed(e).0.fields;
    if e.stack != [] && |e.stack| < SizeLimit {
      assert fs[0] in fs;
    }
  }
}

=== FILE: help.dfy ===
/** The `help` command: the embed describing one command, and the listing
    of every command the asker may use, grouped by category. */
module Help {
  import opened Wrappers
  import opened Text
  import opened Seqs
  import opened Embeds

  const Website := "https://ud-cis-discord.github.io/pages/commands"

  /** The fields of a loaded command the help text reads. `usage`,
      `description` and `extendedHelp` are empty when not set; `permitted`
      is the answer of the command's `permissions` check for the asker
      (`None` when it has none) and `enabled` is `None` when not set. An
      empty `aliases` list is still a list, and so still shown. */
  datatype Command = Command(
    name: string,
    description: string,
    usage: string,
    aliases: Option<seq<string>>,
    extendedHelp: string,
    category: string,
    permitted: Option<bool>,
    enabled: Option<bool>)

  // ---------------------------------------------------------------------------
  // one command
  // ---------------------------------------------------------------------------

  const MoreCommands := Field("More commands", "[Visit our website!](" + Website + ")", false)

  /** The fields of a command's help embed. */
  function CommandFields(c: Command, prefix: string): (fs: seq<Field>)
    ensures |fs| == 2 + (if c.aliases.Some? then 1 else 0) + (if c.extendedHelp != [] then 1 else 0)
    ensures fs[0] == Field("Usage", prefix + c.name + " " + c.usage, true)
    ensures fs[|fs| - 1] == MoreCommands
    ensures c.aliases.Some? ==> fs[1] == Field("Aliases", Join(c.aliases.value, ", "), true)
    ensures c.extendedHelp != [] ==> fs[|fs| - 2] == Field("Extended Help", c.extendedHelp, false)
  {
    var usage := Field("Usage", prefix + c.name + " " + c.usage, true);
    var aliases := match c.aliases
      case Some(xs) => [Field("Aliases", Join(xs, ", "), true)]
      case None => [];
    var extended := if c.extendedHelp != [] then [Field("Extended Help", c.extendedHelp, false)] else [];
    [usage] + aliases + extended + [MoreCommands]
  }

  /** The rank of each field name in the fixed order of the embed. */
  function FieldRank(name: string): int {
    if name == "Usage" then 0
    else if name == "Aliases" then 1
    else if name == "Extended Help" then 2
    else if name == "More commands" then 3
    else 4
  }

  /** The embed's fields always come in the order Usage, Aliases, Extended
      Help, More commands, each at most once; Aliases is there exactly when
      the command has an alias list and Extended Help exactly when it has
      extended help. */
  lemma CommandFieldsOrdered(c: Command, prefix: string)
    ensures var fs := CommandFields(c, prefix);
      && (forall i, j :: 0 <= i < j < |fs| ==> FieldRank(fs[i].name) < FieldRank(fs[j].name))
      && ("Aliases" in Names(fs) <==> c.aliases.Some?)
      && ("Extended Help" in Names(fs) <==> c.extendedHelp != [])
      && Names(fs)[0] == "Usage" && Names(fs)[|fs| - 1] == "More commands"
  {
    var fs := CommandFields(c, prefix);
    var ns := Names(fs);
    assert FieldRank("Usage") == 0 && FieldRank("More commands") == 3;
    assert FieldRank("Aliases") == 1 && FieldRank("Extended Help") == 2;
    assert "Aliases" in ns <==> c.aliases.Some? by {
      if c.aliases.Some? {
        assert ns[1] == "Aliases";
      }
    }
    assert "Extended Help" in ns <==> c.extendedHelp != [] by {
      if c.extendedHelp != [] {
        assert ns[|fs| - 2] == "Extended Help";
      }
    }
  }

  /** A command's help embed. */
  datatype CommandEmbed = CommandEmbed(title: string, description: string, fields: seq<Field>)

  /** What `run` answers. */
  datatype Reply = NotACommand(text: string) | Details(embed: CommandEmbed) | Listing(text: string)

  /** `run` with an argument: the named command's embed, or a refusal when
      the lookup (aliases included) finds no command. */
  function Describe(cmd: string, lookup: string -> Option<Command>, prefix: string): (r: Reply)
    ensures r.NotACommand? <==> lookup(cmd).None?
    ensures r.Details? <==> lookup(cmd).Some?
    ensures r.NotACommand? ==> r.text == "**" + cmd + "** is not a valid command."
    ensures r.Details? ==>
      && r.embed.title == lookup(cmd).value.name
      && r.embed.description == lookup(cmd).value.description
      && r.embed.fields == CommandFields(lookup(cmd).value, prefix)
  {
    match lookup(cmd)
    case None => NotACommand("**" + cmd + "** is not a valid command.")
    case Some(c) => Details(CommandEmbed(c.name, c.description, CommandFields(c, prefix)))
  }

  // ---------------------------------------------------------------------------
  // the listing
  // ---------------------------------------------------------------------------

  function CategoriesOf(cmds: seq<Command>): (cs: seq<string>)
    ensures |cs| == |cmds|
    ensures forall i :: 0 <= i < |cmds| ==> cs[i] == cmds[i].category
  {
    seq(|cmds|, i requires 0 <= i < |cmds| => cmds[i].category)
  }

  /** The categories in order of first appearance, each once. */
  function Categories(cmds: seq<Command>): (cats: seq<string>)
    ensures NoDup(cats)
    ensures forall cat :: cat in cats <==> exists c :: c in cmds && c.category == cat
    ensures forall i, j :: 0 <= i < j < |cats| ==> Before(CategoriesOf(cmds), cats[i], cats[j])
  {
    var cs := CategoriesOf(cmds);
    assert forall cat :: cat in cs <==> exists c :: c in cmds && c.category == cat by {
      forall cat
        ensures cat in cs <==> exists c :: c in cmds && c.category == cat
      {
        if cat in cs {
          var i :| 0 <= i < |cs| && cs[i] == cat;
          assert cmds[i] in cmds;
        }
        if exists c :: c in cmds && c.category == cat {
          var c :| c in cmds && c.category == cat;
          var i :| 0 <= i < |cmds| && cmds[i] == c;
          assert cs[i] == cat;
        }
      }
    }
    Distinct(cs)
  }

  /** The asker may see `c` under `cat`: right category, no failing
      permission check, not disabled. */
  predicate Usable(c: Command, cat: string) {
    c.category == cat && c.permitted != Some(false) && c.enabled != Some(false)
  }

  /** The usable commands of a category, in the order they were loaded. */
  function UsableIn(cmds: seq<Command>, cat: string): (us: seq<Command>)
    ensures forall c :: c in us <==> c in cmds && Usable(c, cat)
    ensures |us| <= |cmds|
  {
    if cmds == [] then []
    else
      var rest := UsableIn(cmds[1..], cat);
      assert forall c :: c in cmds <==> c == cmds[0] || c in cmds[1..];
      if Usable(cmds[0], cat) then [cmds[0]] + rest else rest
  }

  /** The heading shown for a category: `General` for `commands`, otherwise
      the name with its first letter upper-cased. An empty category name
      has no first letter: the source fails there, here `None`. */
  function CategoryName(cat: string): (n: Option<string>)
    ensures n.None? <==> cat == []
    ensures cat == "commands" ==> n == Some("General")
    ensures n.Some? && cat != "commands" ==>
      && |n.value| == |cat|
      && n.value[0] == UpperChar(cat[0])
      && n.value[1..] == cat[1..]
  {
    if cat == "commands" then Some("General")
    else if cat == [] then None
    else Some([UpperChar(cat[0])] + cat[1..])
  }

  /** One block of the listing: a heading and the commands under it. */
  datatype Section = Section(heading: string, category: string, commands: seq<Command>)

  /** The sections for `cats`, skipping categories with no usable command. */
  function SectionsFor(cats: seq<string>, cmds: seq<Command>): (ss: seq<Section>)
    requires [] !in cats
    ensures forall i :: 0 <= i < |ss| ==>
      && ss[i].category in cats
      && ss[i].commands == UsableIn(cmds, ss[i].category)
      && ss[i].commands != []
      && Some(ss[i].heading) == CategoryName(ss[i].category)
  {
    if cats == [] then []
    else
      var us := UsableIn(cmds, cats[0]);
      var rest := SectionsFor(cats[1..], cmds);
      if us == [] then rest else [Section(CategoryName(cats[0]).value, cats[0], us)] + rest
  }

  /** Every category with a usable command gets a section. */
  lemma {:induction false} SectionsForCover(cats: seq<string>, cmds: seq<Command>, cat: string)
    requires [] !in cats
    requires cat in cats && UsableIn(cmds, cat) != []
    ensures cat in SectionCategories(SectionsFor(cats, cmds))
  {
    var ss := SectionsFor(cats, cmds);
    if cat == cats[0] {
      assert SectionCategories(ss)[0] == cat;
    } else {
      var rest := SectionsFor(cats[1..], cmds);
      assert cat in cats[1..];
      SectionsForCover(cats[1..], cmds, cat);
      var i :| 0 <= i < |rest| && SectionCategories(rest)[i] == cat;
      if UsableIn(cmds, cats[0]) != [] {
        assert ss[i + 1] == rest[i];
        assert SectionCategories(ss)[i + 1] == cat;
      } else {
        assert SectionCategories(ss)[i] == cat;
      }
    }
  }

  /** The category of each section, in order. */
  function SectionCategories(ss: seq<Section>): (cs: seq<string>)
    ensures |cs| == |ss|
    ensures forall i :: 0 <= i < |ss| ==> cs[i] == ss[i].category
  {
    if ss == [] then [] else [ss[0].category] + SectionCategories(ss[1..])
  }

  /** Keeping some categories of a list without repeats keeps it without
      repeats. */
  lemma {:induction false} SectionsForNoDup(cats: seq<string>, cmds: seq<Command>)
    requires [] !in cats
    requires NoDup(cats)
    ensures NoDup(SectionCategories(SectionsFor(cats, cmds)))
  {
    if cats != [] {
      var tail := cats[1..];
      NoDupTail(cats);
      SectionsForNoDup(tail, cmds);
      var rest := SectionsFor(tail, cmds);
      if UsableIn(cmds, cats[0]) != [] {
        var s := SectionsFor(cats, cmds)[0];
        assert SectionsFor(cats, cmds) == [s] + rest;
        assert SectionCategories([s] + rest) == [cats[0]] + SectionCategories(rest);
        NoDupCons(cats[0], SectionCategories(rest));
      }
    }
  }

  /** The sections' categories first occur in `order` in the order of the
      sections. */
  predicate InOrderOf(order: seq<string>, ss: seq<Section>) {
    forall i, j :: 0 <= i < j < |ss| ==> Before(order, ss[i].category, ss[j].category)
  }

  /** Sections ordered by the tail of a category list stay ordered by the
      whole list, also behind a section for its head. */
  lemma InOrderOfTail(cats: seq<string>, s: Section, rest: seq<Section>)
    requires cats != [] && cats[0] !in cats[1..]
    requires InOrderOf(cats[1..], rest)
    requires forall i :: 0 <= i < |rest| ==> rest[i].category in cats[1..]
    ensures InOrderOf(cats, rest)
    ensures s.category == cats[0] ==> InOrderOf(cats, [s] + rest)
  {
    forall i, j | 0 <= i < j < |rest|
      ensures Before(cats, rest[i].category, rest[j].category)
    {
      BeforeTail(cats, rest[i].category, rest[j].category);
    }
    if s.category == cats[0] {
      var ss := [s] + rest;
      forall i, j | 0 <= i < j < |ss|
        ensures Before(cats, ss[i].category, ss[j].category)
      {
        assert ss[j] == rest[j - 1];
        if i > 0 {
          assert ss[i] == rest[i - 1];
        }
        BeforeTail(cats, ss[i].category, ss[j].category);
      }
    }
  }

  /** The sections keep the order of the categories they come from. */
  lemma {:induction false} SectionsForOrdered(cats: seq<string>, cmds: seq<Command>)
    requires [] !in cats
    requires NoDup(cats)
    ensures InOrderOf(cats, SectionsFor(cats, cmds))
  {
    if cats != [] {
      var tail := cats[1..];
      NoDupTail(cats);
      SectionsForOrdered(tail, cmds);
      var rest := SectionsFor(tail, cmds);
      var us := UsableIn(cmds, cats[0]);
      var head := Section(if us == [] then [] else CategoryName(cats[0]).value, cats[0], us);
      InOrderOfTail(cats, head, rest);
      if us != [] {
        assert SectionsFor(cats, cmds) == [head] + rest;
      }
    }
  }

  /** The listing's sections, or `None` when some command has an empty
      category. */
  function Sections(cmds: seq<Command>): (r: Option<seq<Section>>)
    ensures r.None? <==> exists c :: c in cmds && c.category == []
  {
    var cats := Categories(cmds);
    if [] in cats then None else Some(SectionsFor(cats, cmds))
  }

  /** A command is listed exactly when the asker may use it, each category
      heads at most one section, and no section is empty. */
  lemma ListedIffUsable(cmds: seq<Command>)
    requires Sections(cmds).Some?
    ensures var ss := Sections(cmds).value;
      && NoDup(SectionCategories(ss))
      && (forall i :: 0 <= i < |ss| ==> ss[i].commands != [])
      && forall c :: (exists i :: 0 <= i < |ss| && c in ss[i].commands) <==>
           c in cmds && c.permitted != Some(false) && c.enabled != Some(false)
  {
    var cats := Categories(cmds);
    var ss := Sections(cmds).value;
    assert [] !in cats;
    assert ss == SectionsFor(cats, cmds);
    SectionsForNoDup(cats, cmds);
    forall c
      ensures (exists i :: 0 <= i < |ss| && c in ss[i].commands) <==>
        c in cmds && c.permitted != Some(false) && c.enabled != Some(false)
    {
      ListedOne(cats, cmds, c);
      if c in cmds {
        assert c.category in cats;
      }
    }
  }

  /** The sections come in the order in which their categories first
      appear among the loaded commands. */
  lemma SectionsInLoadOrder(cmds: seq<Command>)
    requires Sections(cmds).Some?
    ensures InOrderOf(CategoriesOf(cmds), Sections(cmds).value)
  {
    var cats := Categories(cmds);
    var ss := Sections(cmds).value;
    var cs := CategoriesOf(cmds);
    assert ss == SectionsFor(cats, cmds);
    SectionsForOrdered(cats, cmds);
    forall i, j | 0 <= i < j < |ss|
      ensures Before(cs, ss[i].category, ss[j].category)
    {
      assert InOrderOf(cats, ss);
      assert Before(cats, ss[i].category, ss[j].category);
      var a := FirstIndex(cats, ss[i].category);
      var b := FirstIndex(cats, ss[j].category);
      assert Before(cs, cats[a], cats[b]);
    }
  }

  /** One command is in some section for `cats` exactly when it is usable
      under one of them. */
  lemma ListedOne(cats: seq<string>, cmds: seq<Command>, c: Command)
    requires [] !in cats
    ensures var ss := SectionsFor(cats, cmds);
      (exists i :: 0 <= i < |ss| && c in ss[i].commands) <==>
        c in cmds && c.category in cats && Usable(c, c.category)
  {
    var ss := SectionsFor(cats, cmds);
    if exists i :: 0 <= i < |ss| && c in ss[i].commands {
      var i :| 0 <= i < |ss| && c in ss[i].commands;
      InSection(ss[i], cmds, c);
    }
    if c in cmds && c.category in cats && Usable(c, c.category) {
      UsableIsListed(cats, cmds, c);
    }
  }

  lemma InSection(s: Section, cmds: seq<Command>, c: Command)
    requires s.commands == UsableIn(cmds, s.category)
    requires c in s.commands
    ensures c in cmds && Usable(c, s.category) && c.category == s.category
  {
  }

  lemma UsableIsListed(cats: seq<string>, cmds: seq<Command>, c: Command)
    requires [] !in cats
    requires c in cmds && c.category in cats && Usable(c, c.category)
    ensures exists i :: 0 <= i < |SectionsFor(cats, cmds)| && c in SectionsFor(cats, cmds)[i].commands
  {
    var ss := SectionsFor(cats, cmds);
    var us := UsableIn(cmds, c.category);
    assert c in us;
    SectionsForCover(cats, cmds, c.category);
    var i :| 0 <= i < |ss| && SectionCategories(ss)[i] == c.category;
    assert ss[i].commands == us;
    assert c in ss[i].commands;
  }

  /** The line shown for one command. */
  function CommandLine(c: Command, prefix: string): string {
    "`" + prefix + c.name + "` \U{21D2} "
      + (if c.description != [] then c.description else "No description provided") + "\n"
  }

  function CommandLines(cs: seq<Command>, prefix: string): string {
    if cs == [] then "" else CommandLine(cs[0], prefix) + CommandLines(cs[1..], prefix)
  }

  function RenderSections(ss: seq<Section>, prefix: string): string {
    if ss == [] then ""
    else
      "\n**" + ss[0].heading + " Commands**\n" + CommandLines(ss[0].commands, prefix)
      + RenderSections(ss[1..], prefix)
  }

  function Intro(prefix: string): string {
    "You can do `" + prefix + "help <command>` to get more information about any command, "
      + "or you can visit our website here:\n<" + Website + ">\n"
  }

  /** `run` without an argument: the text sent to the asker's DMs before it
      is split into messages. */
  function ListingText(cmds: seq<Command>, prefix: string): (r: Option<string>)
    ensures r.None? <==> exists c :: c in cmds && c.category == []
    ensures r.Some? ==> Intro(prefix) <= r.value
    ensures r.Some? && Sections(cmds).value == [] ==> r.value == Intro(prefix)
  {
    match Sections(cmds)
    case None => None
    case Some(ss) => Some(Intro(prefix) + RenderSections(ss, prefix))
  }

  /** The line of every command of a block is in the block's text. */
  lemma {:induction false} CommandLinesMention(cs: seq<Command>, prefix: string, c: Command)
    requires c in cs
    ensures Mentions(CommandLines(cs, prefix), CommandLine(c, prefix))
  {
    var line := CommandLine(cs[0], prefix);
    var rest := CommandLines(cs[1..], prefix);
    if c == cs[0] {
      assert line[0..] == line;
      MentionsWithin([], line, rest, line);
      assert [] + line + rest == CommandLines(cs, prefix);
    } else {
      CommandLinesMention(cs[1..], prefix, c);
      MentionsWithin(line, rest, [], CommandLine(c, prefix));
      assert line + rest + [] == CommandLines(cs, prefix);
    }
  }

  /** The line of every command of every section is in the rendered text. */
  lemma {:induction false} RenderSectionsMention(ss: seq<Section>, prefix: string, i: nat, c: Command)
    requires i < |ss| && c in ss[i].commands
    ensures Mentions(RenderSections(ss, prefix), CommandLine(c, prefix))
  {
    var head := "\n**" + ss[0].heading + " Commands**\n";
    var block := CommandLines(ss[0].commands, prefix);
    var rest := RenderSections(ss[1..], prefix);
    assert RenderSections(ss, prefix) == head + block + rest;
    if i == 0 {
      CommandLinesMention(ss[0].commands, prefix, c);
      MentionsWithin(head, block, rest, CommandLine(c, prefix));
    } else {
      RenderSectionsMention(ss[1..], prefix, i - 1, c);
      MentionsWithin(head + block, rest, [], CommandLine(c, prefix));
      assert head + block + rest + [] == RenderSections(ss, prefix);
    }
  }

  /** Every command the asker may use has its line in the listing. */
  lemma ListingMentionsUsable(cmds: seq<Command>, prefix: string, c: Command)
    requires ListingText(cmds, prefix).Some?
    requires c in cmds && c.permitted != Some(false) && c.enabled != Some(false)
    ensures Mentions(ListingText(cmds, prefix).value, CommandLine(c, prefix))
  {
    var ss := Sections(cmds).value;
    ListedIffUsable(cmds);
    var i :| 0 <= i < |ss| && c in ss[i].commands;
    RenderSectionsMention(ss, prefix, i, c);
    MentionsWithin(Intro(prefix), RenderSections(ss, prefix), [], CommandLine(c, prefix));
    assert Intro(prefix) + RenderSections(ss, prefix) + [] == ListingText(cmds, prefix).value;
  }

  /** `run`: details for a named command, otherwise the listing (`None`
      when the listing fails on an empty category name). */
  function Run(cmd: string, cmds: seq<Command>, lookup: string -> Option<Command>, prefix: string): (r: Option<Reply>)
    ensures cmd != [] ==> r == Some(Describe(cmd, lookup, prefix))
    ensures cmd == [] ==> (r.Some? <==> ListingText(cmds, prefix).Some?)
    ensures cmd == [] && r.Some? ==> r.value == Listing(ListingText(cmds, prefix).value)
  {
    if cmd != [] then Some(Describe(cmd, lookup, prefix))
    else match ListingText(cmds, prefix)
      case None => None
      case Some(t) => Some(Listing(t))
  }
}

=== FILE: leaderboard.dfy ===
/** The `leaderboard` command without its canvas: the page argument, the
    ranking order, which ten users a page shows, and the rank, exp and
    footer numbers printed for them. */
module Leaderboard {
  import opened Wrappers
  import opened Text
  import opened Seqs

  const PageSize := 10

  /** The fields of a stored user the command reads. */
  datatype User = User(discordId: string, level: int, curExp: int, levelExp: int)

  // ---------------------------------------------------------------------------
  // the page argument
  // ---------------------------------------------------------------------------

  /** `argParser`: the parsed integer when it is above 1, else page 1 (also
      for text that is not a number). */
  function ParsePage(input: string): (page: int)
    ensures page >= 1
    ensures page > 1 <==> ParseInt(input).Some? && ParseInt(input).value > 1
    ensures page > 1 ==> page == ParseInt(input).value
  {
    match ParseInt(input)
    case Some(n) => if n > 1 then n else 1
    case None => 1
  }

  /** A page number written out reads back as itself, anything below 1 as
      page 1. */
  lemma ParsePageOfNumber(n: int)
    ensures ParsePage(IntToString(n)) == if n > 1 then n else 1
  {
    ParseIntOfIntToString(n, "");
    assert IntToString(n) + "" == IntToString(n);
  }

  // ---------------------------------------------------------------------------
  // ranking order
  // ---------------------------------------------------------------------------

  /** The sort comparator: negative when `a` goes first. It never answers 0:
      two users with equal level and equal `curExp` each claim to go after
      the other. */
  function Compare(a: User, b: User): int {
    if a.level - b.level != 0 then (if a.level > b.level then -1 else 1)
    else if a.curExp < b.curExp then -1 else 1
  }

  /** `a` may stand before `b`: higher level, or the same level and no more
      current exp. */
  predicate InOrder(a: User, b: User) {
    a.level > b.level || (a.level == b.level && a.curExp <= b.curExp)
  }

  /** Consecutive users are in order. */
  predicate Ranked(us: seq<User>) {
    forall i :: 0 <= i < |us| - 1 ==> InOrder(us[i], us[i + 1])
  }

  /** Where the comparator puts `a` first, `a` may stand before `b`; where it
      puts `b` first, `b` may stand before `a`. */
  lemma CompareAgreesWithOrder(a: User, b: User)
    ensures Compare(a, b) < 0 ==> InOrder(a, b)
    ensures Compare(a, b) > 0 ==> InOrder(b, a)
  {
  }

  function Insert(u: User, us: seq<User>): (r: seq<User>)
    requires Ranked(us)
    ensures Ranked(r)
    ensures multiset(r) == multiset(us) + multiset{u}
    ensures |r| == |us| + 1
    ensures r[0] == u || (us != [] && r[0] == us[0])
  {
    if us == [] then [u]
    else if Compare(u, us[0]) < 0 then [u] + us
    else
      var rest := Insert(u, us[1..]);
      assert us == [us[0]] + us[1..];
      [us[0]] + rest
  }

  /** `users.sort(Compare)`: a permutation of the users in ranking order.
      (Which of several users with equal level and `curExp` comes first is
      left to the JavaScript engine; this is one of the allowed answers.) */
  function Sort(us: seq<User>): (r: seq<User>)
    ensures Ranked(r)
    ensures multiset(r) == multiset(us)
    ensures |r| == |us|
  {
    if us == [] then []
    else
      assert us == [us[0]] + us[1..];
      Insert(us[0], Sort(us[1..]))
  }

  /** In a ranked list every earlier user has at least the level of every
      later one, and among equal levels no more current exp. */
  lemma {:induction false} RankedGlobally(us: seq<User>, i: int, j: int)
    requires Ranked(us)
    requires 0 <= i < j < |us|
    ensures us[i].level >= us[j].level
    ensures us[i].level == us[j].level ==> us[i].curExp <= us[j].curExp
    decreases j - i
  {
    if j > i + 1 {
      RankedGlobally(us, i + 1, j);
    }
  }

  // ---------------------------------------------------------------------------
  // which users a page shows
  // ---------------------------------------------------------------------------

  /** The page actually shown, the index of its first user, and its end
      index (`None` standing for `undefined`: up to the end of the list). */
  datatype Window = Window(page: int, start: int, end: Option<int>)

  /** The page clamp and slice bounds as written: a page past the end
      becomes `floor(len / 10) + 1`. */
  function PageWindowAsWritten(page: int, len: nat): (w: Window)
    requires page >= 1
    ensures w.page >= 1 && w.start == w.page * PageSize - PageSize
    ensures 0 <= w.start <= len
    ensures w.end.Some? <==> page * PageSize <= len
    ensures w.end.Some? ==> w.page == page && w.end.value == page * PageSize
    ensures w.end.None? ==> w.page == len / PageSize + 1
  {
    var p := if page * PageSize > len then len / PageSize + 1 else page;
    Window(p, p * PageSize - PageSize, if p * PageSize > len then None else Some(p * PageSize))
  }

  /** The last page that holds a user (page 1 for an empty list). */
  function LastPage(len: nat): (p: int)
    ensures p >= 1
    ensures len > 0 ==> (p - 1) * PageSize < len <= p * PageSize
  {
    if len == 0 then 1 else (len + PageSize - 1) / PageSize
  }

  /** The page clamp as intended: a page past the end becomes the last page
      that holds a user. */
  function PageWindow(page: int, len: nat): (w: Window)
    requires page >= 1
    ensures w.page >= 1 && w.start == w.page * PageSize - PageSize
    ensures 0 <= w.start <= len
    ensures len > 0 ==> w.start < len
    ensures page * PageSize <= len ==> w == PageWindowAsWritten(page, len)
    ensures page * PageSize > len ==> w.page == LastPage(len)
  {
    var p := if page * PageSize > len then LastPage(len) else page;
    Window(p, p * PageSize - PageSize, if p * PageSize > len then None else Some(p * PageSize))
  }

  /** A window's slice bounds fit a list of `len` users. */
  predicate Fits(w: Window, len: nat) {
    && 0 <= w.start <= len
    && (w.end.Some? ==> w.start <= w.end.value <= len)
  }

  /** `users.slice(start, end)`. */
  function Shown(users: seq<User>, w: Window): seq<User>
    requires Fits(w, |users|)
  {
    match w.end
    case Some(e) => users[w.start..e]
    case None => users[w.start..]
  }

  /** As written, a page within the list shows ten users and a clamped page
      shows `len mod 10`. */
  lemma ShownCountAsWritten(users: seq<User>, page: int)
    requires page >= 1
    ensures var w := PageWindowAsWritten(page, |users|);
      && Fits(w, |users|)
      && |Shown(users, w)| == if page * PageSize <= |users| then PageSize else |users| % PageSize
  {
  }

  /** The discrepancy: with a multiple of ten users, asking for any page past
      the end clamps to a page that shows nobody. Ten users and page 2 is the
      smallest case. */
  lemma EmptyPageAsWritten(users: seq<User>, page: int)
    requires |users| > 0 && |users| % PageSize == 0
    requires page * PageSize > |users|
    ensures var w := PageWindowAsWritten(page, |users|);
      Fits(w, |users|) && Shown(users, w) == []
  {
  }

  /** With the intended clamp every page of a non-empty list shows between
      one and ten users. */
  lemma ShownCount(users: seq<User>, page: int)
    requires page >= 1
    ensures var w := PageWindow(page, |users|);
      && Fits(w, |users|)
      && |Shown(users, w)| <= PageSize
      && (|users| > 0 ==> |Shown(users, w)| >= 1)
  {
  }

  /** The footer range "start+1 - (end || users.length)". Its upper end is
      always the index after the last shown user, for either clamp. */
  function FooterRange(w: Window, len: nat): (int, int) {
    (w.start + 1, match w.end case Some(e) => e case None => len)
  }

  lemma FooterRangeIsShown(users: seq<User>, w: Window)
    requires Fits(w, |users|)
    ensures FooterRange(w, |users|).1 == w.start + |Shown(users, w)|
  {
  }

  // ---------------------------------------------------------------------------
  // the rows and the message
  // ---------------------------------------------------------------------------

  /** What is drawn for one user: rank, id, level and the exp still needed. */
  datatype Line = Line(rank: int, discordId: string, level: int, exp: int)

  /** The drawn lines: the i-th shown user has rank `i + 1 + (page - 1) * 10`
      and exp `levelExp - curExp`. */
  function Lines(shown: seq<User>, page: int): (ls: seq<Line>)
    ensures |ls| == |shown|
  {
    seq(|shown|, i requires 0 <= i < |shown| =>
      Line(i + 1 + (page - 1) * PageSize, shown[i].discordId, shown[i].level,
           shown[i].levelExp - shown[i].curExp))
  }

  /** The rank printed for a shown user is its position in the whole
      ranking, counted from 1, for either clamp: both start the window at
      `(page - 1) * 10` of the page they show. */
  lemma RankIsPosition(ranked: seq<User>, w: Window)
    requires Fits(w, |ranked|) && w.start == w.page * PageSize - PageSize
    ensures var shown := Shown(ranked, w);
      var ls := Lines(shown, w.page);
      forall i :: 0 <= i < |ls| ==>
        && ls[i].rank == w.start + i + 1
        && 1 <= ls[i].rank <= |ranked|
        && ranked[ls[i].rank - 1] == shown[i]
        && ls[i].exp == ranked[ls[i].rank - 1].levelExp - ranked[ls[i].rank - 1].curExp
  {
  }

  /** The index of the first user with id `id`, if any. */
  function IndexOf(us: seq<User>, id: string): (r: Option<nat>)
    ensures r.Some? ==> r.value < |us| && us[r.value].discordId == id
    ensures r.Some? ==> forall j :: 0 <= j < r.value ==> us[j].discordId != id
    ensures r.None? ==> forall j :: 0 <= j < |us| ==> us[j].discordId != id
  {
    if us == [] then None
    else if us[0].discordId == id then Some(0)
    else match IndexOf(us[1..], id)
      case Some(k) => Some(k + 1)
      case None => None
  }

  /** Why `run` stops with a TypeError: the asker has no stored user (the
      destructuring of `dbAuthor`), or the page shows nobody
      (`displUsers[0].discordId` for the embed colour). */
  datatype Error = AskerNotRanked | EmptyPage

  datatype View = View(lines: seq<Line>, content: string, footer: string)

  function ContentText(rank: int, level: int, exp: int): string {
    "You are #" + IntToString(rank) + " and at level " + IntToString(level)
      + " with " + IntToString(exp) + " exp."
  }

  /** "Showing page <page> (<first> - <last>)". */
  function FooterText(page: int, first: int, last: int): string {
    "Showing page " + IntToString(page) + " (" + IntToString(first) + " - "
      + IntToString(last) + ")"
  }

  /** Some stored user has the id `id`. */
  predicate Stored(users: seq<User>, id: string) {
    exists j :: 0 <= j < |users| && users[j].discordId == id
  }

  /** `content` states the standing of the first user with id `id` in the
      ranking: its rank counted from 1, its level and the exp it still
      needs. */
  predicate DescribesAsker(ranked: seq<User>, id: string, content: string) {
    exists k :: 0 <= k < |ranked| && ranked[k].discordId == id
      && (forall j :: 0 <= j < k ==> ranked[j].discordId != id)
      && content == ContentText(k + 1, ranked[k].level, ranked[k].levelExp - ranked[k].curExp)
  }

  /** A user in the ranking is a stored user and the other way round. */
  lemma RankedIsStored(users: seq<User>, id: string)
    ensures Stored(Sort(users), id) <==> Stored(users, id)
  {
    var ranked := Sort(users);
    if Stored(users, id) {
      var j :| 0 <= j < |users| && users[j].discordId == id;
      assert users[j] in multiset(ranked);
    }
    if Stored(ranked, id) {
      var j :| 0 <= j < |ranked| && ranked[j].discordId == id;
      assert ranked[j] in multiset(users);
    }
  }

  /** The view of a window for the asker at index `k` of the ranking. */
  function ViewAt(ranked: seq<User>, w: Window, k: nat): View
    requires Fits(w, |ranked|) && k < |ranked|
  {
    var asker := ranked[k];
    var range := FooterRange(w, |ranked|);
    View(Lines(Shown(ranked, w), w.page),
         ContentText(k + 1, asker.level, asker.levelExp - asker.curExp),
         FooterText(w.page, range.0, range.1))
  }

  /** `v` draws every user of the window's slice and nothing else: its i-th
      line carries rank `w.start + i + 1` and the id, level and missing exp
      of `ranked[w.start + i]`, and its footer names page `w.page` and the
      ranks of its first and last line. */
  predicate DrawsWindow(ranked: seq<User>, w: Window, v: View) {
    && Fits(w, |ranked|)
    && |v.lines| == |Shown(ranked, w)|
    && (forall i :: 0 <= i < |v.lines| ==>
          && w.start + i < |ranked|
          && v.lines[i] == Line(w.start + i + 1, ranked[w.start + i].discordId, ranked[w.start + i].level,
                                ranked[w.start + i].levelExp - ranked[w.start + i].curExp))
    && v.footer == FooterText(w.page, w.start + 1, w.start + |v.lines|)
  }

  /** The drawn lines of a window are the users of the ranking from
      `w.start` on, numbered by their position. */
  lemma {:induction false} LinesOfWindow(ranked: seq<User>, w: Window)
    requires Fits(w, |ranked|) && w.start == w.page * PageSize - PageSize
    ensures var ls := Lines(Shown(ranked, w), w.page);
      forall i :: 0 <= i < |ls| ==>
        && w.start + i < |ranked|
        && ls[i] == Line(w.start + i + 1, ranked[w.start + i].discordId, ranked[w.start + i].level,
                         ranked[w.start + i].levelExp - ranked[w.start + i].curExp)
  {
    var shown := Shown(ranked, w);
    var ls := Lines(shown, w.page);
    forall i | 0 <= i < |ls|
      ensures w.start + i < |ranked|
      ensures ls[i] == Line(w.start + i + 1, ranked[w.start + i].discordId, ranked[w.start + i].level,
                            ranked[w.start + i].levelExp - ranked[w.start + i].curExp)
    {
      assert shown[i] == ranked[w.start + i];
    }
  }

  lemma ViewAtDrawsWindow(ranked: seq<User>, w: Window, k: nat)
    requires Fits(w, |ranked|) && k < |ranked| && w.start == w.page * PageSize - PageSize
    ensures DrawsWindow(ranked, w, ViewAt(ranked, w, k))
  {
    LinesOfWindow(ranked, w);
    FooterRangeIsShown(ranked, w);
  }

  /** `run` without drawing, as written: rank the users, clamp the page as
      the code does, and describe the asker's own standing. It fails when
      the asker has no stored user, and also when the clamp lands on an
      empty page, which happens exactly for a non-empty multiple of ten
      users and a page past the end. */
  function Run(users: seq<User>, page: int, authorId: string): (r: Result<View, Error>)
    requires page >= 1
    ensures r == Err(AskerNotRanked) <==> !Stored(users, authorId)
    ensures r == Err(EmptyPage) <==>
      Stored(users, authorId) && |users| % PageSize == 0 && page * PageSize > |users|
    ensures r.Ok? ==> 1 <= |r.value.lines| <= PageSize
    ensures r.Ok? ==> DescribesAsker(Sort(users), authorId, r.value.content)
    ensures r.Ok? ==> DrawsWindow(Sort(users), PageWindowAsWritten(page, |users|), r.value)
  {
    var ranked := Sort(users);
    var w := PageWindowAsWritten(page, |ranked|);
    RankedIsStored(users, authorId);
    match IndexOf(ranked, authorId)
    case None => Err(AskerNotRanked)
    case Some(k) =>
      ShownCountAsWritten(ranked, page);
      ViewAtDrawsWindow(ranked, w, k);
      if Shown(ranked, w) == [] then Err(EmptyPage)
      else Ok(ViewAt(ranked, w, k))
  }

  /** `run` with the intended clamp: only a missing asker makes it fail,
      and every page it shows holds between one and ten users. */
  function RunIntended(users: seq<User>, page: int, authorId: string): (r: Result<View, Error>)
    requires page >= 1
    ensures r.Err? <==> !Stored(users, authorId)
    ensures r.Err? ==> r.error == AskerNotRanked
    ensures r.Ok? ==> 1 <= |r.value.lines| <= PageSize
    ensures r.Ok? ==> DescribesAsker(Sort(users), authorId, r.value.content)
    ensures r.Ok? ==> DrawsWindow(Sort(users), PageWindow(page, |users|), r.value)
  {
    var ranked := Sort(users);
    var w := PageWindow(page, |ranked|);
    RankedIsStored(users, authorId);
    match IndexOf(ranked, authorId)
    case None => Err(AskerNotRanked)
    case Some(k) =>
      ShownCount(ranked, page);
      ViewAtDrawsWindow(ranked, w, k);
      Ok(ViewAt(ranked, w, k))
  }

  /** The two clamps differ only where the written one lands on an empty
      page: whenever `run` does not stop there, it answers what the
      intended version does. */
  lemma RunAgreesWithIntended(users: seq<User>, page: int, authorId: string)
    requires page >= 1
    ensures Run(users, page, authorId) != Err(EmptyPage) ==>
      Run(users, page, authorId) == RunIntended(users, page, authorId)
  {
    var len := |Sort(users)|;
    if page * PageSize > len && len % PageSize != 0 {
      assert LastPage(len) == len / PageSize + 1;
      assert PageWindow(page, len) == PageWindowAsWritten(page, len);
    }
  }

  /** The smallest case of the discrepancy: ten stored users, the asker
      among them, asking for page 2. */
  lemma TenUsersPageTwo(asker: User)
    ensures Run(seq(10, _ => asker), 2, asker.discordId) == Err(EmptyPage)
    ensures RunIntended(seq(10, _ => asker), 2, asker.discordId).Ok?
  {
    var users := seq(10, _ => asker);
    assert users[0].discordId == asker.discordId;
  }
}

=== FILE: poll.dfy ===
/** The `poll` command: parsing `timespan|question|choice…`, laying the
    choices out as emoji-labelled buttons, and wording the result. */
module Poll {
  import opened Wrappers
  import opened Text
  import opened Seqs

  const Usage := "<timespan>|<question>|<choice 1>|<choice2>|...|<choiceX>"

  /** The keycap emoji 1 to 9 and the ten emoji, in order. */
  const Emotes: seq<string> := [
    "1\U{FE0F}\U{20E3}", "2\U{FE0F}\U{20E3}", "3\U{FE0F}\U{20E3}", "4\U{FE0F}\U{20E3}",
    "5\U{FE0F}\U{20E3}", "6\U{FE0F}\U{20E3}", "7\U{FE0F}\U{20E3}", "8\U{FE0F}\U{20E3}",
    "9\U{FE0F}\U{20E3}", "\U{1F51F}"
  ]

  const MaxChoices := 10
  const RowWidth := 5

  /** What the argument parser hands to `run`. */
  datatype PollArgs = PollArgs(timespan: int, question: string, choices: seq<string>)

  datatype ArgError = InvalidTimespan(raw: string) | TooFewChoices | TooManyChoices

  /** The text thrown back to the user for each rejection. */
  function ArgErrorText(e: ArgError): string {
    match e
    case InvalidTimespan(raw) => "**" + raw + "** is not a valid timespan!\n\nUsage: " + Usage
    case TooFewChoices => "I need at least two choices to make a poll."
    case TooManyChoices => "Sorry but that's too many choices for me. Please use ten or less."
  }

  /** `argParser`: the first piece is the timespan, checked first; then
      there must be a question and between two and ten choices. */
  function ParseArgs(input: string, duration: DurationParser): (r: Result<PollArgs, ArgError>)
    ensures var ps := Pieces(input);
      && (r.Ok? <==> duration(ps[0]) != 0 && 4 <= |ps| <= 12)
      && (duration(ps[0]) == 0 ==> r == Err(InvalidTimespan(ps[0])))
      && (duration(ps[0]) != 0 && |ps| < 4 ==> r == Err(TooFewChoices))
      && (duration(ps[0]) != 0 && |ps| > 12 ==> r == Err(TooManyChoices))
      && (r.Ok? ==> r.value.timespan == duration(ps[0])
                    && [r.value.question] + r.value.choices == ps[1..])
    ensures r.Ok? ==> 2 <= |r.value.choices| <= MaxChoices
  {
    var ps := Pieces(input);
    var timespan := duration(ps[0]);
    if timespan == 0 then Err(InvalidTimespan(ps[0]))
    else if |ps| - 1 < 3 then Err(TooFewChoices)
    else if |ps| - 1 > 11 then Err(TooManyChoices)
    else Ok(PollArgs(timespan, ps[1], ps[2..]))
  }

  /** Writing a poll command out and parsing it gives the poll back when it
      has between two and ten choices, and the matching rejection when it
      has one or eleven. */
  lemma ParseArgsOfCommand(timespan: string, question: string, choices: seq<string>, duration: DurationParser)
    requires CleanPiece(timespan) && CleanPiece(question)
    requires forall i :: 0 <= i < |choices| ==> CleanPiece(choices[i])
    requires duration(timespan) != 0
    ensures var r := ParseArgs(Join([timespan, question] + choices, "|"), duration);
      && (2 <= |choices| <= 10 ==> r == Ok(PollArgs(duration(timespan), question, choices)))
      && (|choices| < 2 ==> r == Err(TooFewChoices))
      && (|choices| > 10 ==> r == Err(TooManyChoices))
  {
    var xs := [timespan, question] + choices;
    PiecesOfJoin(xs);
    assert xs[2..] == choices;
  }

  /** A timespan the duration parser rejects is reported before anything
      about the choices is checked. */
  lemma TimespanCheckedFirst(timespan: string, rest: seq<string>, duration: DurationParser)
    requires CleanPiece(timespan)
    requires forall i :: 0 <= i < |rest| ==> CleanPiece(rest[i])
    requires duration(timespan) == 0
    ensures ParseArgs(Join([timespan] + rest, "|"), duration) == Err(InvalidTimespan(timespan))
  {
    var xs := [timespan] + rest;
    PiecesOfJoin(xs);
    var ps := Pieces(Join(xs, "|"));
    assert ps[0] == timespan;
  }

  // ---------------------------------------------------------------------------
  // buttons and rows
  // ---------------------------------------------------------------------------

  /** A button: its custom id and its label (`caption`) are both the choice text. */
  datatype Button = Button(customId: string, caption: string, emoji: string)

  /** One button per choice, the i-th carrying the i-th emoji. */
  function Buttons(choices: seq<string>): (bs: seq<Button>)
    requires |choices| <= MaxChoices
    ensures |bs| == |choices|
    ensures forall i :: 0 <= i < |bs| ==> bs[i].customId == bs[i].caption == choices[i]
    ensures forall i :: 0 <= i < |bs| ==> bs[i].emoji == Emotes[i]
    ensures forall i, j :: 0 <= i < j < |bs| ==> bs[i].emoji != bs[j].emoji
  {
    seq(|choices|, i requires 0 <= i < |choices| => Button(choices[i], choices[i], Emotes[i]))
  }

  /** The action rows: the first five buttons, and a second row with the
      rest only when there are more than five. */
  function Rows(buttons: seq<Button>): (rows: seq<seq<Button>>)
    ensures Concat(rows) == buttons
    ensures |rows| == (if |buttons| > RowWidth then 2 else 1)
    ensures |rows[0]| == Min(RowWidth, |buttons|)
    ensures |buttons| <= MaxChoices ==> forall i :: 0 <= i < |rows| ==> |rows[i]| <= RowWidth
  {
    var first := buttons[..Min(RowWidth, |buttons|)];
    if |buttons| > RowWidth then
      assert Concat([buttons[RowWidth..]]) == buttons[RowWidth..];
      assert first + buttons[RowWidth..] == buttons;
      [first, buttons[RowWidth..]]
    else
      assert first + [] == buttons;
      [first]
  }

  // ---------------------------------------------------------------------------
  // the choice list in the poll embed
  // ---------------------------------------------------------------------------

  /** The line shown for choice `i`. */
  function ChoiceLine(choices: seq<string>, i: nat): string
    requires i < |choices| <= MaxChoices
  {
    Emotes[i] + " " + choices[i]
  }

  /** `choiceText` before the final trim: every choice line followed by a
      newline. */
  function RawChoiceText(choices: seq<string>): string
    requires |choices| <= MaxChoices
  {
    if choices == [] then ""
    else RawChoiceText(choices[..|choices| - 1]) + ChoiceLine(choices, |choices| - 1) + "\n"
  }

  function ChoiceText(choices: seq<string>): string
    requires |choices| <= MaxChoices
  {
    Trim(RawChoiceText(choices))
  }

  function Lines(choices: seq<string>): (ls: seq<string>)
    requires |choices| <= MaxChoices
    ensures |ls| == |choices|
  {
    seq(|choices|, i requires 0 <= i < |choices| => ChoiceLine(choices, i))
  }

  lemma {:induction false} RawChoiceTextIsLines(choices: seq<string>)
    requires 1 <= |choices| <= MaxChoices
    ensures RawChoiceText(choices) == Join(Lines(choices), "\n") + "\n"
  {
    var n := |choices|;
    if n > 1 {
      var p := choices[..n - 1];
      RawChoiceTextIsLines(p);
      var ls := Lines(choices);
      assert Lines(p) == ls[..n - 1];
      JoinSnoc(ls, "\n");
    }
  }

  lemma {:induction false} JoinSnoc(xs: seq<string>, sep: string)
    requires |xs| >= 2
    ensures Join(xs, sep) == Join(xs[..|xs| - 1], sep) + sep + xs[|xs| - 1]
  {
    if |xs| > 2 {
      JoinSnoc(xs[1..], sep);
      assert xs[1..][..|xs| - 2] == xs[..|xs| - 1][1..];
    }
  }

  lemma {:induction false} JoinFirstLast(xs: seq<string>, sep: string)
    requires |xs| >= 1 && xs[0] != [] && xs[|xs| - 1] != []
    ensures Join(xs, sep) != []
    ensures Join(xs, sep)[0] == xs[0][0]
    ensures Join(xs, sep)[|Join(xs, sep)| - 1] == xs[|xs| - 1][|xs[|xs| - 1]| - 1]
  {
    if |xs| >= 2 {
      JoinSnoc(xs, sep);
    }
  }

  /** When the last choice is non-empty and trimmed (as the parser leaves
      it), the choice list is exactly one `emoji choice` line per choice,
      in order. */
  lemma ChoiceTextLines(choices: seq<string>)
    requires 1 <= |choices| <= MaxChoices
    requires choices[|choices| - 1] != [] && Trimmed(choices[|choices| - 1])
    ensures ChoiceText(choices) == Join(Lines(choices), "\n")
  {
    RawChoiceTextIsLines(choices);
    var ls := Lines(choices);
    var j := Join(ls, "\n");
    var last := choices[|choices| - 1];
    assert ls[|ls| - 1] == Emotes[|choices| - 1] + " " + last;
    assert ls[|ls| - 1][|ls[|ls| - 1]| - 1] == last[|last| - 1];
    assert ls[0][0] == '1';
    JoinFirstLast(ls, "\n");
    var s := j + "\n";
    assert !IsSpace(s[0]);
    assert LeadingSpace(s) == 0;
    assert s[..|s| - 1] == j;
    assert ContentEnd(j) == |j|;
    assert ContentEnd(s) == |j|;
  }

  // ---------------------------------------------------------------------------
  // results
  // ---------------------------------------------------------------------------

  /** The Results text of a poll nobody voted in. */
  const NoVotesText := "The poll ended " + "but it looks like no one voted! \U{2639}"

  /** The plural suffix: none for exactly one vote. */
  function Plural(votes: int): (s: string)
    ensures s == "" <==> votes == 1
  {
    if votes == 1 then "" else "s"
  }

  /** The vote count as the win message words it. */
  function VoteCount(votes: int): string {
    "with " + IntToString(votes) + " vote" + Plural(votes)
  }

  /** The options in bold, joined by `** & **`. */
  function Bold(options: seq<string>): string {
    "**" + Join(options, "** & **") + "** "
  }

  /** What follows the bold options: "won" for one, "tied ... each" for
      several. */
  function Verdict(single: bool, votes: int): string {
    if single then "won the poll " + VoteCount(votes) + "."
    else "tied the poll " + VoteCount(votes) + " each."
  }

  /** The end of the win message: the count, "vote" in the singular for
      exactly one vote, and "each" after a tie. */
  function CountTail(single: bool, votes: int): string {
    IntToString(votes) + (if votes == 1 then " vote" else " votes") + (if single then "." else " each.")
  }

  /** `winMessage`: the options in bold joined by `** & **`, then "won"
      for a single option or "tied ... each" for several, and the vote
      count. A one-element array interpolates as its only element, which is
      also its join. */
  function WinMessage(options: seq<string>, votes: int): (m: string)
    ensures Bold(options) <= m
    ensures |options| == 1 <==> Bold(options) + "won " <= m
    ensures |options| != 1 <==> Bold(options) + "tied " <= m
    ensures EndsWith(m, CountTail(|options| == 1, votes))
  {
    var rest := Verdict(|options| == 1, votes);
    var m := Bold(options) + rest;
    assert m[|Bold(options)|] == rest[0];
    VerdictEnds(|options| == 1, votes);
    EndsWithin(Bold(options), rest, CountTail(|options| == 1, votes));
    if |options| == 1 then PrefixAfter(Bold(options), "won ", rest); m
    else PrefixAfter(Bold(options), "tied ", rest); m
  }

  /** The verdict ends with the count tail. */
  lemma VerdictEnds(single: bool, votes: int)
    ensures EndsWith(Verdict(single, votes), CountTail(single, votes))
  {
    var words := if single then "won the poll " else "tied the poll ";
    var close := if single then "." else " each.";
    var noun := if votes == 1 then " vote" else " votes";
    var n := IntToString(votes);
    var tail := CountTail(single, votes);
    assert " vote" + Plural(votes) == noun;
    assert VoteCount(votes) == ("with " + n) + noun by {
      Assoc("with " + n, " vote", Plural(votes));
    }
    assert Verdict(single, votes) == (words + "with ") + (n + noun + close) by {
      Assoc(words, "with " + n, noun);
      Assoc(words, "with ", n);
      Assoc(words + "with " + n, noun, close);
      Assoc(words + "with ", n, noun + close);
      Assoc(n, noun, close);
    }
    assert tail[|tail| - |tail|..] == tail;
    EndsWithin(words + "with ", tail, tail);
  }

  /** The win message names every option it is given and the vote count. */
  lemma WinMessageNames(options: seq<string>, votes: int)
    ensures forall i :: 0 <= i < |options| ==> Mentions(WinMessage(options, votes), options[i])
    ensures Mentions(WinMessage(options, votes), VoteCount(votes))
  {
    var m := WinMessage(options, votes);
    var joined := Join(options, "** & **");
    var rest := Verdict(|options| == 1, votes);
    assert m == "**" + joined + ("** " + rest) by {
      Assoc("**" + joined, "** ", rest);
    }
    forall i | 0 <= i < |options|
      ensures Mentions(m, options[i])
    {
      JoinMentions(options, "** & **", i);
      MentionsWithin("**", joined, "** " + rest, options[i]);
    }
    var words := if |options| == 1 then "won the poll " else "tied the poll ";
    var close := if |options| == 1 then "." else " each.";
    assert rest == words + VoteCount(votes) + close;
    assert m == (Bold(options) + words) + VoteCount(votes) + close by {
      Assoc(Bold(options), words + VoteCount(votes), close);
      Assoc(Bold(options), words, VoteCount(votes));
    }
    assert VoteCount(votes)[0..] == VoteCount(votes);
    MentionsWithin(Bold(options) + words, VoteCount(votes), close, VoteCount(votes));
  }

  /** The "Results" text of the ended poll: the no-vote notice when the
      winning count is 0, the win message otherwise. */
  function ResultsText(winners: seq<string>, winningCount: nat): (t: string)
    ensures winningCount == 0 <==> t == NoVotesText
  {
    if winningCount == 0 then NoVotesText
    else
      var m := WinMessage(winners, winningCount);
      assert Bold(winners) <= m && Bold(winners)[0] == '*';
      assert m[0] == Bold(winners)[0];
      assert NoVotesText[0] == 'T';
      m
  }

  /** The link back to the poll that closes the announcement. */
  function PollLink(pollUrl: string): string {
    "\n\n[Click to view poll](" + pollUrl + ")"
  }

  /** The description of the separate results announcement: the results
      text, then the link back to the poll. */
  function AnnouncementText(winners: seq<string>, winningCount: nat, pollUrl: string): (t: string)
    ensures ResultsText(winners, winningCount) <= t
    ensures t[|ResultsText(winners, winningCount)|..] == PollLink(pollUrl)
    ensures Mentions(t, pollUrl)
  {
    var r := ResultsText(winners, winningCount);
    Linked(r, pollUrl);
    r + PollLink(pollUrl)
  }

  /** Any text followed by the poll link starts with that text, ends with
      the link, and contains the poll's address. */
  lemma Linked(r: string, pollUrl: string)
    ensures r <= r + PollLink(pollUrl)
    ensures (r + PollLink(pollUrl))[|r|..] == PollLink(pollUrl)
    ensures Mentions(r + PollLink(pollUrl), pollUrl)
  {
    var open := "\n\n[Click to view poll](";
    assert pollUrl <= pollUrl[0..];
    MentionsWithin(r + open, pollUrl, ")", pollUrl);
    Assoc(r, open + pollUrl, ")");
    Assoc(r, open, pollUrl);
  }
}

=== FILE: poll_tally.dfy ===
/** The poll's two collector handlers. The collector hands its
    interactions over one at a time, so a run of the poll is a finite
    sequence of interactions: `collect` acknowledges each of them as it
    arrives, and `end` receives the whole sequence when the time is up and
    tallies it. */
module PollTally {
  import opened Wrappers
  import opened Seqs
  import Poll
  import Text

  /** What the collector sees of an interaction: who pressed, the custom id
      of what was pressed (for a poll button, the choice text), and whether
      it was a button at all. */
  datatype Interaction = Interaction(userId: string, customId: string, isButton: bool)

  /** A vote the end handler counts: a user and the custom id they pressed. */
  datatype Ballot = Ballot(voter: string, key: string)

  function VotersOf(bs: seq<Ballot>): (us: seq<string>)
    ensures |us| == |bs|
  {
    seq(|bs|, i requires 0 <= i < |bs| => bs[i].voter)
  }

  function KeysOf(bs: seq<Ballot>): (ks: seq<string>)
    ensures |ks| == |bs|
  {
    seq(|bs|, i requires 0 <= i < |bs| => bs[i].key)
  }

  /** Reference definition of what is counted: every user's first button
      press, in arrival order; any later interaction of theirs, and every
      non-button interaction, is ignored. */
  function Ballots(evs: seq<Interaction>): seq<Ballot>
  {
    if evs == [] then []
    else
      var prev := Ballots(evs[..|evs| - 1]);
      var e := evs[|evs| - 1];
      if e.isButton && e.userId !in VotersOf(prev) then prev + [Ballot(e.userId, e.customId)] else prev
  }

  /** `u` pressed a button somewhere in `evs`. */
  predicate Pressed(evs: seq<Interaction>, u: string) {
    exists i :: 0 <= i < |evs| && evs[i].isButton && evs[i].userId == u
  }

  /** Each user holds at most one ballot, and exactly the users who pressed
      a button hold one. */
  lemma {:induction false} BallotsOnePerUser(evs: seq<Interaction>)
    ensures NoDup(VotersOf(Ballots(evs)))
    ensures forall u :: u in VotersOf(Ballots(evs)) <==> Pressed(evs, u)
  {
    if evs != [] {
      var p := evs[..|evs| - 1];
      var e := evs[|evs| - 1];
      BallotsOnePerUser(p);
      var prev := Ballots(p);
      if e.isButton && e.userId !in VotersOf(prev) {
        assert VotersOf(prev + [Ballot(e.userId, e.customId)]) == VotersOf(prev) + [e.userId];
      }
      forall u
        ensures Pressed(evs, u) <==> Pressed(p, u) || (e.isButton && e.userId == u)
      {
        if Pressed(evs, u) {
          var i :| 0 <= i < |evs| && evs[i].isButton && evs[i].userId == u;
          if i < |p| {
            assert p[i] == evs[i];
          }
        }
        if Pressed(p, u) {
          var i :| 0 <= i < |p| && p[i].isButton && p[i].userId == u;
          assert evs[i] == p[i];
        }
      }
    }
  }

  /** A ballot is its voter's first button press: the interaction exists,
      and no earlier button press by the same user does. */
  lemma {:induction false} BallotIsFirstPress(evs: seq<Interaction>, b: Ballot)
    requires b in Ballots(evs)
    ensures exists i ::
      && 0 <= i < |evs|
      && evs[i] == Interaction(b.voter, b.key, true)
      && forall j :: 0 <= j < i ==> !(evs[j].isButton && evs[j].userId == b.voter)
  {
    var p := evs[..|evs| - 1];
    var e := evs[|evs| - 1];
    var prev := Ballots(p);
    if b in prev {
      BallotIsFirstPress(p, b);
      var i :| 0 <= i < |p| && p[i] == Interaction(b.voter, b.key, true)
        && forall j :: 0 <= j < i ==> !(p[j].isButton && p[j].userId == b.voter);
      assert evs[i] == p[i];
      assert forall j :: 0 <= j < i ==> evs[j] == p[j];
    } else {
      assert e.isButton && e.userId !in VotersOf(prev) && b == Ballot(e.userId, e.customId);
      BallotsOnePerUser(p);
      var i := |evs| - 1;
      forall j | 0 <= j < i
        ensures !(evs[j].isButton && evs[j].userId == b.voter)
      {
        assert evs[j] == p[j];
      }
    }
  }

  /** Interactions arriving after a user's vote (further presses by users
      who already voted, or anything that is not a button) leave the counted
      votes unchanged. */
  lemma {:induction false} LaterPressesIgnored(evs: seq<Interaction>, later: seq<Interaction>)
    requires forall i :: 0 <= i < |later| ==> !later[i].isButton || later[i].userId in VotersOf(Ballots(evs))
    ensures Ballots(evs + later) == Ballots(evs)
  {
    if later != [] {
      var front := later[..|later| - 1];
      LaterPressesIgnored(evs, front);
      assert (evs + later)[..|evs + later| - 1] == evs + front;
      assert (evs + later)[|evs + later| - 1] == later[|later| - 1];
    } else {
      assert evs + later == evs;
    }
  }

  // ---------------------------------------------------------------------------
  // the collect handler
  // ---------------------------------------------------------------------------

  /** The private acknowledgement sent to a voter. */
  datatype Reply = AlreadyVoted | Counted(choice: string)

  function ReplyText(r: Reply): string {
    match r
    case AlreadyVoted =>
      "Looks like you've already voted in this poll. You cannot vote more than once!"
    case Counted(choice) =>
      "Your vote for **" + choice + "** has been counted. Thanks for your participation!"
  }

  /** The collect handler: non-buttons are ignored; a user already in
      `voted` is told so and `voted` is unchanged; anyone else is appended
      and thanked for the choice they pressed. */
  function Collect(voted: seq<string>, e: Interaction): (r: (seq<string>, Option<Reply>))
    ensures voted <= r.0
    ensures forall u :: u in r.0 <==> u in voted || (e.isButton && u == e.userId)
    ensures NoDup(voted) ==> NoDup(r.0)
    ensures r.1.Some? <==> e.isButton
    ensures r.1 == Some(AlreadyVoted) <==> e.isButton && e.userId in voted
    ensures r.1.Some? && r.1.value.Counted? ==> r.1.value.choice == e.customId && |r.0| == |voted| + 1
    ensures !(r.1.Some? && r.1.value.Counted?) ==> r.0 == voted
  {
    if !e.isButton then (voted, None)
    else if e.userId in voted then (voted, Some(AlreadyVoted))
    else (voted + [e.userId], Some(Counted(e.customId)))
  }

  /** The collect handler run over a whole sequence of interactions: the
      final `voted` list and the reply to each interaction. */
  function CollectAll(evs: seq<Interaction>): (r: (seq<string>, seq<Option<Reply>>))
    ensures |r.1| == |evs|
  {
    if evs == [] then ([], [])
    else
      var prev := CollectAll(evs[..|evs| - 1]);
      var step := Collect(prev.0, evs[|evs| - 1]);
      (step.0, prev.1 + [step.1])
  }

  /** The collect handler's `voted` list is exactly the voters the end
      handler counts, in the same order, so it never holds a duplicate; and
      an interaction is thanked as counted exactly when the end handler
      counts it. */
  lemma {:induction false} CollectAgreesWithEnd(evs: seq<Interaction>)
    ensures CollectAll(evs).0 == VotersOf(Ballots(evs))
    ensures NoDup(CollectAll(evs).0)
    ensures forall i :: 0 <= i < |evs| ==>
      (CollectAll(evs).1[i] == Some(Counted(evs[i].customId)) <==>
       evs[i].isButton && evs[i].userId !in VotersOf(Ballots(evs[..i])))
  {
    BallotsOnePerUser(evs);
    if evs != [] {
      var p := evs[..|evs| - 1];
      var e := evs[|evs| - 1];
      CollectAgreesWithEnd(p);
      var prev := Ballots(p);
      if e.isButton && e.userId !in VotersOf(prev) {
        assert VotersOf(prev + [Ballot(e.userId, e.customId)]) == VotersOf(prev) + [e.userId];
      }
      forall i | 0 <= i < |evs|
        ensures CollectAll(evs).1[i] == Some(Counted(evs[i].customId))
          <==> evs[i].isButton && evs[i].userId !in VotersOf(Ballots(evs[..i]))
      {
        if i < |p| {
          assert evs[..i] == p[..i];
          assert CollectAll(evs).1[i] == CollectAll(p).1[i];
        } else {
          assert evs[..i] == p;
        }
      }
    }
  }

  // ---------------------------------------------------------------------------
  // the end handler
  // ---------------------------------------------------------------------------

  /** Reference definition of the winner list: the keys in the order in
      which each first reached `c` votes. */
  function Reaching(keys: seq<string>, c: nat): seq<string>
  {
    if keys == [] then []
    else
      var k := keys[|keys| - 1];
      Reaching(keys[..|keys| - 1], c) + (if multiset(keys)[k] == c then [k] else [])
  }

  lemma {:induction false} ReachingMembers(keys: seq<string>, c: nat)
    ensures forall k :: k in Reaching(keys, c) <==> c >= 1 && multiset(keys)[k] >= c
  {
    if keys != [] {
      var p := keys[..|keys| - 1];
      var x := keys[|keys| - 1];
      ReachingMembers(p, c);
      assert keys == p + [x];
      assert forall k :: multiset(keys)[k] == multiset(p)[k] + (if k == x then 1 else 0);
    }
  }

  /** Each key reaches a given count only once, so the winner list has no
      duplicates. */
  lemma {:induction false} ReachingNoDup(keys: seq<string>, c: nat)
    ensures NoDup(Reaching(keys, c))
  {
    if keys != [] {
      var p := keys[..|keys| - 1];
      var x := keys[|keys| - 1];
      ReachingNoDup(p, c);
      ReachingMembers(p, c);
      assert keys == p + [x];
      assert multiset(keys)[x] == multiset(p)[x] + 1;
    }
  }

  /** The sum of the counts of `ks` among `keys`. */
  function SumCounts(ks: seq<string>, keys: seq<string>): nat
  {
    if ks == [] then 0 else SumCounts(ks[..|ks| - 1], keys) + multiset(keys)[ks[|ks| - 1]]
  }

  lemma {:induction false} SumCountsSnoc(ks: seq<string>, keys: seq<string>, x: string)
    requires NoDup(ks)
    ensures SumCounts(ks, keys + [x]) == SumCounts(ks, keys) + (if x in ks then 1 else 0)
  {
    if ks != [] {
      var p := ks[..|ks| - 1];
      assert NoDup(p);
      SumCountsSnoc(p, keys, x);
      assert x in ks <==> x in p || x == ks[|ks| - 1];
      assert multiset(keys + [x]) == multiset(keys) + multiset{x};
    }
  }

  /** Summing the count of every distinct key gives the number of ballots. */
  lemma {:induction false} SumCountsDistinct(keys: seq<string>)
    ensures SumCounts(Distinct(keys), keys) == |keys|
  {
    if keys != [] {
      var p := keys[..|keys| - 1];
      var x := keys[|keys| - 1];
      var d := Distinct(p);
      SumCountsDistinct(p);
      assert keys == p + [x];
      SumCountsSnoc(d, p, x);
      if x in d {
        assert Distinct(keys) == d;
      } else {
        assert Distinct(keys) == d + [x];
        assert (d + [x])[..|d|] == d;
        assert multiset(keys)[x] == 1;
      }
    }
  }

  /** The sum of the tallied counts of `ks`. */
  function SumVotes(ks: seq<string>, votes: map<string, nat>): nat
    requires forall i :: 0 <= i < |ks| ==> ks[i] in votes
  {
    if ks == [] then 0 else SumVotes(ks[..|ks| - 1], votes) + votes[ks[|ks| - 1]]
  }

  lemma {:induction false} SumVotesIsSumCounts(ks: seq<string>, votes: map<string, nat>, keys: seq<string>)
    requires forall i :: 0 <= i < |ks| ==> ks[i] in votes && votes[ks[i]] == multiset(keys)[ks[i]]
    ensures SumVotes(ks, votes) == SumCounts(ks, keys)
  {
    if ks != [] {
      SumVotesIsSumCounts(ks[..|ks| - 1], votes, keys);
    }
  }

  /** `votes` holds exactly the keys seen, each with its number of ballots. */
  ghost predicate CountsOf(keys: seq<string>, votes: map<string, nat>) {
    && (forall k :: k in votes <==> k in keys)
    && (forall k :: k in votes ==> votes[k] == multiset(keys)[k])
  }

  /** No key has more than `c` ballots, and `c` is 0 only before any ballot. */
  ghost predicate Highest(keys: seq<string>, c: nat) {
    && (forall k :: multiset(keys)[k] <= c)
    && (c == 0 <==> keys == [])
  }

  /** The end handler's state after counting the ballots with keys `keys`:
      `votes` maps each key seen to its count, `winningCount` is the highest
      count (0 before any vote), and `winners` lists the keys in the order
      they reached it. */
  ghost predicate Tallied(keys: seq<string>, votes: map<string, nat>, winners: seq<string>, winningCount: nat) {
    && CountsOf(keys, votes)
    && Highest(keys, winningCount)
    && winners == Reaching(keys, winningCount)
    && (winningCount > 0 ==> winners != [])
  }

  lemma ReachingSnoc(keys: seq<string>, key: string, c: nat)
    ensures Reaching(keys + [key], c)
      == Reaching(keys, c) + (if multiset(keys + [key])[key] == c then [key] else [])
  {
    assert (keys + [key])[..|keys|] == keys;
  }

  /** No key reaches a count above every count so far. */
  lemma {:induction false} ReachingAbove(keys: seq<string>, c: nat)
    requires forall k :: multiset(keys)[k] < c
    ensures Reaching(keys, c) == []
  {
    if keys != [] {
      var p := keys[..|keys| - 1];
      assert keys == p + [keys[|keys| - 1]];
      assert forall k :: multiset(p)[k] <= multiset(keys)[k];
      ReachingAbove(p, c);
    }
  }

  /** The state of the end handler's loop. */
  datatype TallyState = TallyState(votes: map<string, nat>, winners: seq<string>, winningCount: nat)

  const NoTally := TallyState(map[], [], 0)

  /** One counted ballot, as the loop body of the end handler processes it:
      one more vote for `key`; a count above the winning count starts a new
      winner list, a count equal to it joins the list. */
  function Count(st: TallyState, key: string): TallyState {
    var c := if key in st.votes then st.votes[key] + 1 else 1;
    TallyState(st.votes[key := c],
               if c > st.winningCount then [key] else if c == st.winningCount then st.winners + [key] else st.winners,
               if c > st.winningCount then c else st.winningCount)
  }

  /** The loop's state after counting the keys `keys` in order. */
  function TallyOf(keys: seq<string>): TallyState {
    if keys == [] then NoTally else Count(TallyOf(keys[..|keys| - 1]), keys[|keys| - 1])
  }

  lemma CountStepCounts(keys: seq<string>, votes: map<string, nat>, key: string)
    requires CountsOf(keys, votes)
    ensures CountsOf(keys + [key], votes[key := if key in votes then votes[key] + 1 else 1])
  {
    var keys' := keys + [key];
    assert forall k :: multiset(keys')[k] == multiset(keys)[k] + (if k == key then 1 else 0);
  }

  lemma CountStepHighest(keys: seq<string>, votes: map<string, nat>, winningCount: nat, key: string)
    requires CountsOf(keys, votes) && Highest(keys, winningCount)
    ensures var c := if key in votes then votes[key] + 1 else 1;
      Highest(keys + [key], if c > winningCount then c else winningCount)
  {
    var keys' := keys + [key];
    assert forall k :: multiset(keys')[k] == multiset(keys)[k] + (if k == key then 1 else 0);
  }

  lemma CountStepWinners(keys: seq<string>, st: TallyState, key: string)
    requires Tallied(keys, st.votes, st.winners, st.winningCount)
    ensures var st' := Count(st, key);
      && st'.winners == Reaching(keys + [key], st'.winningCount)
      && (st'.winningCount > 0 ==> st'.winners != [])
  {
    var keys' := keys + [key];
    var c := if key in st.votes then st.votes[key] + 1 else 1;
    var wc' := Count(st, key).winningCount;
    assert multiset(keys')[key] == multiset(keys)[key] + 1;
    assert multiset(keys')[key] == c;
    ReachingSnoc(keys, key, wc');
    if c > st.winningCount {
      ReachingAbove(keys, c);
    }
  }

  /** Counting one more ballot keeps the state a tally of the keys seen. */
  lemma TallyStep(keys: seq<string>, st: TallyState, key: string, keys': seq<string>, st': TallyState)
    requires Tallied(keys, st.votes, st.winners, st.winningCount)
    requires keys' == keys + [key] && st' == Count(st, key)
    ensures Tallied(keys', st'.votes, st'.winners, st'.winningCount)
  {
    CountStepCounts(keys, st.votes, key);
    CountStepHighest(keys, st.votes, st.winningCount, key);
    CountStepWinners(keys, st, key);
  }

  /** Counting the keys one by one yields their tally. */
  lemma {:induction false} TallyOfTallied(keys: seq<string>)
    ensures var st := TallyOf(keys);
      Tallied(keys, st.votes, st.winners, st.winningCount)
  {
    if keys != [] {
      var p := keys[..|keys| - 1];
      var last := keys[|keys| - 1];
      TallyOfTallied(p);
      assert keys == p + [last];
      TallyStep(p, TallyOf(p), last, keys, TallyOf(keys));
    }
  }

  /** How one more interaction changes the ballots, the voters and the
      tallied keys. */
  lemma BallotsStep(evs: seq<Interaction>, i: nat)
    requires i < |evs|
    ensures var bs := Ballots(evs[..i]);
      var e := evs[i];
      if e.isButton && e.userId !in VotersOf(bs) then
        && VotersOf(Ballots(evs[..i + 1])) == VotersOf(bs) + [e.userId]
        && KeysOf(Ballots(evs[..i + 1])) == KeysOf(bs) + [e.customId]
        && KeysOf(Ballots(evs[..i + 1]))[..|KeysOf(bs)|] == KeysOf(bs)
      else Ballots(evs[..i + 1]) == bs
  {
    var bs := Ballots(evs[..i]);
    var e := evs[i];
    assert evs[..i + 1][..i] == evs[..i];
    if e.isButton && e.userId !in VotersOf(bs) {
      var b := Ballot(e.userId, e.customId);
      assert Ballots(evs[..i + 1]) == bs + [b];
      assert VotersOf(bs + [b]) == VotersOf(bs) + [e.userId];
      assert KeysOf(bs + [b]) == KeysOf(bs) + [e.customId];
    }
  }

  /** The end handler's loop. Every user's first button press adds one to
      the count of its custom id; `winningCount` follows the highest count
      and `winners` the keys at that count, in the order they got there.
      (Keys are summed in `Distinct` order, the insertion order in which a
      JavaScript `Map` iterates them.) */
  method Tally(evs: seq<Interaction>) returns (votes: map<string, nat>, winners: seq<string>, winningCount: nat)
    ensures Tallied(KeysOf(Ballots(evs)), votes, winners, winningCount)
    ensures SumVotes(Distinct(KeysOf(Ballots(evs))), votes) == |VotersOf(Ballots(evs))|
    ensures NoDup(winners)
    ensures forall k :: k in winners <==> k in votes && votes[k] == winningCount
    ensures winningCount == 0 <==> forall i :: 0 <= i < |evs| ==> !evs[i].isButton
  {
    var voters: seq<string> := [];
    votes := map[];
    winners := [];
    winningCount := 0;
    var i := 0;
    while i < |evs|
      invariant 0 <= i <= |evs|
      invariant voters == VotersOf(Ballots(evs[..i]))
      invariant TallyState(votes, winners, winningCount) == TallyOf(KeysOf(Ballots(evs[..i])))
    {
      var e := evs[i];
      BallotsStep(evs, i);
      if !(e.userId in voters || !e.isButton) {
        voters := voters + [e.userId];
        var key := e.customId;
        ghost var next := Count(TallyState(votes, winners, winningCount), key);
        if key !in votes {
          votes := votes[key := 1];
        } else {
          votes := votes[key := votes[key] + 1];
        }
        if votes[key] > winningCount {
          winningCount := votes[key];
          winners := [key];
        } else if votes[key] == winningCount {
          winners := winners + [key];
        }
        assert TallyState(votes, winners, winningCount) == next;
      }
      i := i + 1;
    }
    assert evs[..i] == evs;
    TallyOfEvents(evs, votes, winners, winningCount);
  }

  /** What the fold over all the ballots of a run says about the run. */
  lemma TallyOfEvents(evs: seq<Interaction>, votes: map<string, nat>, winners: seq<string>, winningCount: nat)
    requires TallyState(votes, winners, winningCount) == TallyOf(KeysOf(Ballots(evs)))
    ensures Tallied(KeysOf(Ballots(evs)), votes, winners, winningCount)
    ensures SumVotes(Distinct(KeysOf(Ballots(evs))), votes) == |VotersOf(Ballots(evs))|
    ensures NoDup(winners)
    ensures forall k :: k in winners <==> k in votes && votes[k] == winningCount
    ensures winningCount == 0 <==> forall i :: 0 <= i < |evs| ==> !evs[i].isButton
  {
    TallyOfTallied(KeysOf(Ballots(evs)));
    WinnersExact(KeysOf(Ballots(evs)), votes, winners, winningCount);
    SumIsVoters(evs, votes);
    NoBallotsNoPresses(evs);
  }

  /** The winner list holds each key at the winning count exactly once. */
  lemma WinnersExact(keys: seq<string>, votes: map<string, nat>, winners: seq<string>, winningCount: nat)
    requires Tallied(keys, votes, winners, winningCount)
    ensures NoDup(winners)
    ensures forall k :: k in winners <==> k in votes && votes[k] == winningCount
  {
    ReachingMembers(keys, winningCount);
    ReachingNoDup(keys, winningCount);
    forall k
      ensures k in winners <==> k in votes && votes[k] == winningCount
    {
      if k in winners {
        assert multiset(keys)[k] >= winningCount >= 1;
        assert k in multiset(keys);
      }
    }
  }

  /** The counts add up to the number of users who voted. */
  lemma SumIsVoters(evs: seq<Interaction>, votes: map<string, nat>)
    requires forall k :: k in votes <==> k in KeysOf(Ballots(evs))
    requires forall k :: k in votes ==> votes[k] == multiset(KeysOf(Ballots(evs)))[k]
    ensures SumVotes(Distinct(KeysOf(Ballots(evs))), votes) == |VotersOf(Ballots(evs))|
  {
    var keys := KeysOf(Ballots(evs));
    SumCountsDistinct(keys);
    SumVotesIsSumCounts(Distinct(keys), votes, keys);
  }

  /** Nobody voted exactly when there was no button press at all. */
  lemma NoBallotsNoPresses(evs: seq<Interaction>)
    ensures Ballots(evs) == [] <==> forall i :: 0 <= i < |evs| ==> !evs[i].isButton
  {
    BallotsOnePerUser(evs);
    if Ballots(evs) == [] {
      forall j | 0 <= j < |evs|
        ensures !evs[j].isButton
      {
        if evs[j].isButton {
          assert Pressed(evs, evs[j].userId);
        }
      }
    } else {
      var u := VotersOf(Ballots(evs))[0];
      assert Pressed(evs, u);
      var i :| 0 <= i < |evs| && evs[i].isButton && evs[i].userId == u;
    }
  }

  /** The end handler: tally, then the text of the "Results" field and of
      the announcement that links back to the poll. The results name every
      choice that reached the highest count. */
  method End(evs: seq<Interaction>, pollUrl: string)
    returns (winners: seq<string>, winningCount: nat, results: string, announcement: string)
    ensures Highest(KeysOf(Ballots(evs)), winningCount)
    ensures forall k :: k in winners <==>
      k in KeysOf(Ballots(evs)) && multiset(KeysOf(Ballots(evs)))[k] == winningCount
    ensures results == Poll.NoVotesText <==> forall i :: 0 <= i < |evs| ==> !evs[i].isButton
    ensures winningCount > 0 ==> forall k :: k in winners ==> Text.Mentions(results, k)
    ensures winningCount > 0 ==> winners != []
    ensures NoDup(winners) && winners == Reaching(KeysOf(Ballots(evs)), winningCount)
    ensures results == Poll.ResultsText(winners, winningCount)
    ensures announcement == Poll.AnnouncementText(winners, winningCount, pollUrl)
    ensures results <= announcement
  {
    var votes;
    votes, winners, winningCount := Tally(evs);
    results := Poll.ResultsText(winners, winningCount);
    assert results == Poll.NoVotesText <==> winningCount == 0;
    if winningCount > 0 {
      Poll.WinMessageNames(winners, winningCount);
    }
    announcement := Poll.AnnouncementText(winners, winningCount, pollUrl);
  }
}

=== FILE: remind.dfy ===
/** The `remind` command's argument parser: `content | duration | repeat`
    becomes a reminder record, or one of two rejections. */
module Remind {
  import opened Wrappers
  import opened Text

  const Usage := "<reminder> | <duration> | [repeat]"

  const WeekWords: seq<string> := ["w", "week", "weekly"]
  const DayWords: seq<string> := ["d", "day", "daily"]

  datatype Repeat = Daily | Weekly

  /** Where the reminder is delivered: privately when set from a DM. */
  datatype Mode = Private | Public

  datatype Reminder = Reminder(owner: string, content: string, mode: Mode, expires: int, repeat: Option<Repeat>)

  /** What the parser reads from the message and the clock. */
  datatype Context = Context(authorId: string, isDM: bool, now: int)

  /** A rejected piece, as typed (`None` for a piece that is missing). */
  datatype ArgError = InvalidDuration(rawDuration: Option<string>) | InvalidRepeat(rawRepeat: string)

  /** A missing piece interpolates as `undefined`. */
  function Shown(raw: Option<string>): string {
    match raw
    case Some(s) => s
    case None => "undefined"
  }

  /** The text thrown back to the user for each rejection. */
  function ArgErrorText(e: ArgError): string {
    match e
    case InvalidDuration(raw) => "**" + Shown(raw) + "** is not a valid duration."
    case InvalidRepeat(raw) => "**" + raw + "** is not a valid repeat value."
  }

  /** The `i`-th piece of `input`, if there is one (`undefined` when
      destructuring runs past the end). */
  function Piece(input: string, i: nat): (p: Option<string>)
    ensures p.Some? <==> i < |Pieces(input)|
    ensures p.Some? ==> p.value == Pieces(input)[i]
  {
    var ps := Pieces(input);
    if i < |ps| then Some(ps[i]) else None
  }

  /** The repeat piece: absent or empty means no repeat; a week word or a
      day word in any case picks the period; anything else is rejected. */
  function ClassifyRepeat(raw: Option<string>): (r: Result<Option<Repeat>, ArgError>)
    ensures r == Ok(None) <==> raw.None? || raw == Some("")
    ensures r == Ok(Some(Weekly)) <==> raw.Some? && ToLower(raw.value) in WeekWords
    ensures r == Ok(Some(Daily)) <==> raw.Some? && ToLower(raw.value) in DayWords
    ensures r.Err? ==> raw.Some? && r == Err(InvalidRepeat(raw.value))
  {
    match raw
    case None => Ok(None)
    case Some(s) =>
      if s == [] then Ok(None)
      else if ToLower(s) in WeekWords then Ok(Some(Weekly))
      else if ToLower(s) in DayWords then Ok(Some(Daily))
      else Err(InvalidRepeat(s))
  }

  /** Classification ignores letter case: a repeat word and its lower-case
      form are accepted or rejected alike, with the same period. */
  lemma ClassifyRepeatIgnoresCase(s: string)
    ensures ClassifyRepeat(Some(s)).Ok? <==> ClassifyRepeat(Some(ToLower(s))).Ok?
    ensures ClassifyRepeat(Some(s)).Ok? ==> ClassifyRepeat(Some(s)) == ClassifyRepeat(Some(ToLower(s)))
  {
    ToLowerIdempotent(s);
    assert s == [] <==> ToLower(s) == [];
  }

  /** The Kelvin sign lower-cases to `k`, so "WEE" followed by it is a week
      word. */
  lemma KelvinSignWeekly()
    ensures ClassifyRepeat(Some("WEE" + [KelvinSign])) == Ok(Some(Weekly))
  {
    assert ToLower("WEE" + [KelvinSign]) == "week";
  }

  /** The word `run` stores for each period. */
  function RepeatWord(p: Repeat): string {
    match p
    case Weekly => "weekly"
    case Daily => "daily"
  }

  /** The stored word for a period is itself accepted as that period. */
  lemma RepeatWordAccepted(period: Repeat)
    ensures CleanPiece(RepeatWord(period))
    ensures ClassifyRepeat(Some(RepeatWord(period))) == Ok(Some(period))
  {
    var word := RepeatWord(period);
    assert !IsSpace(word[0]);
    assert !IsSpace(word[|word| - 1]);
    assert ToLower(word) == word;
  }

  /** `argParser`: the duration is checked first (a missing one is never
      valid), then the repeat; the reminder expires `duration` milliseconds
      after `now`. Pieces after the third are ignored. */
  function ParseArgs(input: string, ctx: Context, duration: DurationParser): (r: Result<Reminder, ArgError>)
    ensures var d := Piece(input, 1);
      && (r.Err? && r.error.InvalidDuration? <==> d.None? || duration(d.value) == 0)
      && (r.Err? && r.error.InvalidDuration? ==> r.error.rawDuration == d)
    ensures r.Err? && r.error.InvalidRepeat? <==>
      && Piece(input, 1).Some? && duration(Piece(input, 1).value) != 0
      && ClassifyRepeat(Piece(input, 2)).Err?
    ensures r.Err? && r.error.InvalidRepeat? ==> r.error == ClassifyRepeat(Piece(input, 2)).error
    ensures r.Ok? ==>
      && r.value.owner == ctx.authorId
      && Piece(input, 0) == Some(r.value.content)
      && (r.value.mode == Private <==> ctx.isDM)
      && r.value.expires == ctx.now + duration(Piece(input, 1).value)
      && ClassifyRepeat(Piece(input, 2)) == Ok(r.value.repeat)
  {
    var content := Pieces(input)[0];
    var rawDuration := Piece(input, 1);
    if rawDuration.None? || duration(rawDuration.value) == 0 then Err(InvalidDuration(rawDuration))
    else
      var span := duration(rawDuration.value);
      match ClassifyRepeat(Piece(input, 2))
      case Err(e) => Err(e)
      case Ok(repeat) =>
        Ok(Reminder(ctx.authorId, content, if ctx.isDM then Private else Public, ctx.now + span, repeat))
  }

  /** Arguments whose pieces are the content, an accepted duration and an
      accepted repeat word (`Weekly`, `D`, ..., or empty for none) give the
      reminder they describe, whatever pieces follow. */
  lemma ParseArgsOfPieces(input: string, xs: seq<string>, ctx: Context, duration: DurationParser)
    requires Pieces(input) == xs && |xs| >= 3
    requires duration(xs[1]) != 0
    requires ClassifyRepeat(Some(xs[2])).Ok?
    ensures ParseArgs(input, ctx, duration)
      == Ok(Reminder(ctx.authorId, xs[0], if ctx.isDM then Private else Public,
                     ctx.now + duration(xs[1]), ClassifyRepeat(Some(xs[2])).value))
  {
  }

  /** Writing a reminder command out and parsing it gives back the reminder
      it describes. */
  lemma ParseArgsOfCommand(xs: seq<string>, ctx: Context, duration: DurationParser)
    requires |xs| >= 3
    requires forall j :: 0 <= j < |xs| ==> CleanPiece(xs[j])
    requires duration(xs[1]) != 0
    requires ClassifyRepeat(Some(xs[2])).Ok?
    ensures ParseArgs(Join(xs, "|"), ctx, duration)
      == Ok(Reminder(ctx.authorId, xs[0], if ctx.isDM then Private else Public,
                     ctx.now + duration(xs[1]), ClassifyRepeat(Some(xs[2])).value))
  {
    PiecesOfJoin(xs);
    ParseArgsOfPieces(Join(xs, "|"), xs, ctx, duration);
  }

  /** Arguments with only a content and an accepted duration set a one-off
      reminder. */
  lemma ParseArgsOneOffPieces(input: string, xs: seq<string>, ctx: Context, duration: DurationParser)
    requires Pieces(input) == xs && |xs| == 2
    requires duration(xs[1]) != 0
    ensures ParseArgs(input, ctx, duration)
      == Ok(Reminder(ctx.authorId, xs[0], if ctx.isDM then Private else Public,
                     ctx.now + duration(xs[1]), None))
  {
  }

  /** A command without a repeat piece sets a one-off reminder. */
  lemma ParseArgsOneOff(xs: seq<string>, ctx: Context, duration: DurationParser)
    requires |xs| == 2
    requires forall j :: 0 <= j < |xs| ==> CleanPiece(xs[j])
    requires duration(xs[1]) != 0
    ensures ParseArgs(Join(xs, "|"), ctx, duration)
      == Ok(Reminder(ctx.authorId, xs[0], if ctx.isDM then Private else Public,
                     ctx.now + duration(xs[1]), None))
  {
    PiecesOfJoin(xs);
    ParseArgsOneOffPieces(Join(xs, "|"), xs, ctx, duration);
  }

  /** A duration the parser rejects is reported whatever the repeat piece
      says. */
  lemma DurationCheckedFirst(xs: seq<string>, ctx: Context, duration: DurationParser)
    requires |xs| >= 2
    requires forall j :: 0 <= j < |xs| ==> CleanPiece(xs[j])
    requires duration(xs[1]) == 0
    ensures ParseArgs(Join(xs, "|"), ctx, duration) == Err(InvalidDuration(Some(xs[1])))
  {
    PiecesOfJoin(xs);
  }

  /** A command with no `|` at all has no duration piece, and is rejected
      as `undefined`. */
  lemma DurationMissing(content: string, ctx: Context, duration: DurationParser)
    requires '|' !in content
    ensures ParseArgs(content, ctx, duration) == Err(InvalidDuration(None))
  {
    SplitJoin([content], '|');
    assert Join([content], "|") == content;
  }
}

=== FILE: seqs.dfy ===
/** Small facts about sequences shared by the commands. */
module Seqs {

  /** No element occurs twice. */
  predicate NoDup<T(==)>(s: seq<T>) {
    forall i, j :: 0 <= i < j < |s| ==> s[i] != s[j]
  }

  /** The concatenation of a sequence of sequences. */
  function Concat<T>(ss: seq<seq<T>>): seq<T> {
    if ss == [] then [] else ss[0] + Concat(ss[1..])
  }

  function Min(a: int, b: int): int {
    if a <= b then a else b
  }

  /** The index where `x` first occurs in `s`. */
  function FirstIndex<T(==)>(s: seq<T>, x: T): (i: nat)
    requires x in s
    ensures i < |s| && s[i] == x
    ensures forall j :: 0 <= j < i ==> s[j] != x
  {
    if s[0] == x then 0 else 1 + FirstIndex(s[1..], x)
  }

  /** `a` first occurs in `s` before `b` does. */
  predicate Before<T(==)>(s: seq<T>, a: T, b: T) {
    a in s && b in s && FirstIndex(s, a) < FirstIndex(s, b)
  }

  /** An element of a prefix first occurs in the prefix where it first
      occurs in the whole sequence. */
  lemma {:induction false} FirstIndexPrefix<T>(s: seq<T>, n: nat, x: T)
    requires n <= |s| && x in s[..n]
    ensures FirstIndex(s, x) == FirstIndex(s[..n], x)
  {
    assert s[..n][0] == s[0];
    if s[0] != x {
      assert s[..n][1..] == s[1..][..n - 1];
      FirstIndexPrefix(s[1..], n - 1, x);
    }
  }

  /** Order of first appearance in the tail of a sequence carries over to
      the whole sequence, whose head comes before everything in the tail. */
  lemma BeforeTail<T>(s: seq<T>, a: T, b: T)
    requires s != [] && s[0] !in s[1..] && b in s[1..]
    ensures a == s[0] ==> Before(s, a, b)
    ensures a in s[1..] && Before(s[1..], a, b) ==> Before(s, a, b)
  {
    assert FirstIndex(s, b) == FirstIndex(s[1..], b) + 1;
    if a in s[1..] {
      assert FirstIndex(s, a) == FirstIndex(s[1..], a) + 1;
    }
  }

  /** The distinct elements of `s` in order of first appearance. */
  function Distinct<T(==,!new)>(s: seq<T>): (r: seq<T>)
    ensures NoDup(r)
    ensures forall x :: x in r <==> x in s
    ensures forall i, j :: 0 <= i < j < |r| ==> Before(s, r[i], r[j])
  {
    if s == [] then []
    else
      var n := |s| - 1;
      var p := Distinct(s[..n]);
      assert forall x :: x in s <==> x in s[..n] || x == s[n];
      forall x | x in p
        ensures FirstIndex(s, x) == FirstIndex(s[..n], x) < n
      {
        FirstIndexPrefix(s, n, x);
      }
      if s[n] in p then p
      else
        assert FirstIndex(s, s[n]) == n;
        p + [s[n]]
  }

  /** Dropping the head keeps a sequence free of repeats, and the head does
      not occur again. */
  lemma NoDupTail<T>(s: seq<T>)
    requires NoDup(s) && s != []
    ensures NoDup(s[1..]) && s[0] !in s[1..]
  {
  }

  /** A new element in front of a sequence without repeats. */
  lemma NoDupCons<T>(x: T, s: seq<T>)
    requires NoDup(s) && x !in s
    ensures NoDup([x] + s)
  {
    var t := [x] + s;
    forall i, j | 0 <= i < j < |t|
      ensures t[i] != t[j]
    {
      assert t[j] == s[j - 1];
      if i > 0 {
        assert t[i] == s[i - 1];
      }
    }
  }
}

=== FILE: text.dfy ===
/** The JavaScript string and number primitives the commands rely on:
    `split` and `join`, `trim`, ASCII `toLowerCase`/`toUpperCase`,
    `parseInt` and the decimal rendering of an integer in a template
    literal. */
module Text {
  import opened Wrappers

  /** The duration library the commands call: the number of milliseconds a
      span expression such as `1h 30m` denotes, 0 standing for every falsy
      answer (`null`, `NaN`, `0`). Its grammar is not part of this model. */
  type DurationParser = string -> int

  // ---------------------------------------------------------------------------
  // split / join
  // ---------------------------------------------------------------------------

  /** `s.split(sep)` for a one-character separator: the maximal pieces
      between occurrences of `sep`, always at least one (possibly empty). */
  function Split(s: string, sep: char): (r: seq<string>)
    ensures |r| >= 1
    ensures forall i :: 0 <= i < |r| ==> sep !in r[i]
  {
    if s == [] then [""]
    else
      var rest := Split(s[1..], sep);
      if s[0] == sep then [""] + rest
      else [[s[0]] + rest[0]] + rest[1..]
  }

  /** `xs.join(sep)`. */
  function Join(xs: seq<string>, sep: string): string
  {
    if |xs| == 0 then ""
    else if |xs| == 1 then xs[0]
    else xs[0] + sep + Join(xs[1..], sep)
  }

  /** `s` contains `w` somewhere (`s.includes(w)`). */
  predicate Mentions(s: string, w: string) {
    exists k :: 0 <= k <= |s| && w <= s[k..]
  }

  /** Text around a mention does not hide it. */
  lemma MentionsWithin(a: string, s: string, b: string, w: string)
    requires Mentions(s, w)
    ensures Mentions(a + s + b, w)
  {
    var k :| 0 <= k <= |s| && w <= s[k..];
    var t := a + s + b;
    assert t[|a| + k..] == s[k..] + b;
  }

  lemma Assoc(a: string, b: string, c: string)
    ensures a + (b + c) == a + b + c
  {
  }

  /** A common front keeps a prefix a prefix. */
  /** `s` ends with `t`. */
  predicate EndsWith(s: string, t: string) {
    |t| <= |s| && s[|s| - |t|..] == t
  }

  /** A text ending with `t` still ends with it after a prefix. */
  lemma EndsWithin(a: string, b: string, t: string)
    requires EndsWith(b, t)
    ensures EndsWith(a + b, t)
  {
    assert (a + b)[|a + b| - |t|..] == b[|b| - |t|..];
  }

  lemma PrefixAfter(a: string, w: string, r: string)
    requires w <= r
    ensures a + w <= a + r
  {
    assert (a + r)[..|a + w|] == a + r[..|w|];
  }

  /** Every piece of a join occurs in it. */
  lemma {:induction false} JoinMentions(xs: seq<string>, sep: string, i: nat)
    requires i < |xs|
    ensures Mentions(Join(xs, sep), xs[i])
  {
    if |xs| == 1 {
      assert Join(xs, sep)[0..] == xs[0];
    } else if i == 0 {
      assert xs[0][0..] == xs[0];
      MentionsWithin([], xs[0], sep + Join(xs[1..], sep), xs[0]);
      assert [] + xs[0] + (sep + Join(xs[1..], sep)) == Join(xs, sep);
    } else {
      JoinMentions(xs[1..], sep, i - 1);
      MentionsWithin(xs[0] + sep, Join(xs[1..], sep), [], xs[i]);
      assert xs[0] + sep + Join(xs[1..], sep) + [] == Join(xs, sep);
    }
  }

  /** Joining the pieces back with the separator gives the input again. */
  lemma {:induction false} JoinSplit(s: string, sep: char)
    ensures Join(Split(s, sep), [sep]) == s
  {
    if s != [] {
      JoinSplit(s[1..], sep);
      var rest := Split(s[1..], sep);
      if s[0] != sep {
        if |rest| == 1 {
        } else {
          assert ([s[0]] + rest[0]) + [sep] + Join(rest[1..], [sep])
              == [s[0]] + (rest[0] + [sep] + Join(rest[1..], [sep]));
        }
      }
    }
  }

  /** Splitting `a + t` where `a` holds no separator glues `a` to the first
      piece of `t`. */
  lemma {:induction false} SplitPrefix(a: string, t: string, sep: char)
    requires sep !in a
    ensures Split(a + t, sep) == [a + Split(t, sep)[0]] + Split(t, sep)[1..]
  {
    if a != [] {
      SplitPrefix(a[1..], t, sep);
      SplitCons(a[0], a[1..] + t, sep);
      assert [a[0]] + (a[1..] + t) == a + t;
      assert [a[0]] + (a[1..] + Split(t, sep)[0]) == a + Split(t, sep)[0];
    } else {
      var st := Split(t, sep);
      assert a + t == t && a + st[0] == st[0];
      assert st == [st[0]] + st[1..];
    }
  }

  /** One unfolding of `Split` on a non-separator first character. */
  lemma SplitCons(x: char, s: string, sep: char)
    requires x != sep
    ensures Split([x] + s, sep) == [[x] + Split(s, sep)[0]] + Split(s, sep)[1..]
  {
    assert ([x] + s)[1..] == s;
  }

  /** A leading separator splits off an empty piece. */
  lemma SplitAtSep(t: string, sep: char)
    ensures Split([sep] + t, sep) == [""] + Split(t, sep)
  {
    assert ([sep] + t)[1..] == t;
  }

  /** Splitting a join of separator-free pieces gives the pieces back. */
  lemma {:induction false} SplitJoin(xs: seq<string>, sep: char)
    requires |xs| >= 1
    requires forall i :: 0 <= i < |xs| ==> sep !in xs[i]
    ensures Split(Join(xs, [sep]), sep) == xs
  {
    if |xs| == 1 {
      SplitPrefix(xs[0], "", sep);
      assert xs[0] + "" == xs[0];
    } else {
      SplitJoin(xs[1..], sep);
      var tail := [sep] + Join(xs[1..], [sep]);
      assert xs[0] + [sep] + Join(xs[1..], [sep]) == xs[0] + tail;
      SplitPrefix(xs[0], tail, sep);
      SplitAtSep(Join(xs[1..], [sep]), sep);
      assert xs[0] + "" == xs[0];
      assert xs == [xs[0]] + xs[1..];
    }
  }

  // ---------------------------------------------------------------------------
  // trim
  // ---------------------------------------------------------------------------

  /** The characters `String.prototype.trim` removes: ECMAScript WhiteSpace
      and LineTerminator. */
  predicate IsSpace(ch: char) {
    || ch == '\t' || ch == '\n' || ch == '\U{000B}' || ch == '\U{000C}' || ch == '\r'
    || ch == ' ' || ch == '\U{00A0}' || ch == '\U{1680}'
    || ('\U{2000}' <= ch <= '\U{200A}')
    || ch == '\U{2028}' || ch == '\U{2029}' || ch == '\U{202F}' || ch == '\U{205F}'
    || ch == '\U{3000}' || ch == '\U{FEFF}'
  }

  predicate AllSpace(s: string) {
    forall i :: 0 <= i < |s| ==> IsSpace(s[i])
  }

  /** Neither end of `s` is a white-space character. */
  predicate Trimmed(s: string) {
    s == [] || (!IsSpace(s[0]) && !IsSpace(s[|s| - 1]))
  }

  /** Number of white-space characters at the start of `s`. */
  function LeadingSpace(s: string): (k: nat)
    ensures k <= |s|
    ensures forall i :: 0 <= i < k ==> IsSpace(s[i])
    ensures k < |s| ==> !IsSpace(s[k])
  {
    if s != [] && IsSpace(s[0]) then 1 + LeadingSpace(s[1..]) else 0
  }

  /** Length of `s` without the white-space characters at its end. */
  function ContentEnd(s: string): (j: nat)
    ensures j <= |s|
    ensures forall i :: j <= i < |s| ==> IsSpace(s[i])
    ensures j > 0 ==> !IsSpace(s[j - 1])
  {
    if s != [] && IsSpace(s[|s| - 1]) then ContentEnd(s[..|s| - 1]) else |s|
  }

  /** `s.trimStart()`. */
  function TrimStart(s: string): string
  {
    s[LeadingSpace(s)..]
  }

  /** `s.trim()`. */
  function Trim(s: string): string
  {
    var t := TrimStart(s);
    t[..ContentEnd(t)]
  }

  /** `trim` keeps a contiguous slice of its input, drops only white space
      around it, and leaves no white space at either end. */
  lemma TrimSlice(s: string)
    ensures Trimmed(Trim(s))
    ensures exists i, j ::
      && 0 <= i <= j <= |s|
      && Trim(s) == s[i..j]
      && AllSpace(s[..i])
      && AllSpace(s[j..])
  {
    var i := LeadingSpace(s);
    var t := s[i..];
    var j := i + ContentEnd(t);
    assert Trim(s) == s[i..j];
    assert AllSpace(s[..i]);
    assert AllSpace(s[j..]) by {
      forall k | 0 <= k < |s| - j
        ensures IsSpace(s[j..][k])
      {
        assert s[j..][k] == t[ContentEnd(t) + k];
      }
    }
  }

  /** `trim` does nothing to a string with no white space at either end. */
  lemma TrimOfTrimmed(s: string)
    requires Trimmed(s)
    ensures Trim(s) == s
  {
    assert LeadingSpace(s) == 0;
    assert ContentEnd(s) == |s|;
  }

  // ---------------------------------------------------------------------------
  // command arguments
  // ---------------------------------------------------------------------------

  /** `input.split('|').map(p => p.trim())`: the pieces of a command's
      arguments. */
  function Pieces(input: string): (ps: seq<string>)
    ensures |ps| == |Split(input, '|')| >= 1
    ensures forall i :: 0 <= i < |ps| ==> ps[i] == Trim(Split(input, '|')[i])
  {
    var raw := Split(input, '|');
    seq(|raw|, i requires 0 <= i < |raw| => Trim(raw[i]))
  }

  /** A piece as a user would type it: no `|` and no surrounding space. */
  predicate CleanPiece(s: string) {
    '|' !in s && Trimmed(s)
  }

  /** Arguments written out from clean pieces are read back as those
      pieces. */
  lemma PiecesOfJoin(xs: seq<string>)
    requires |xs| >= 1
    requires forall i :: 0 <= i < |xs| ==> CleanPiece(xs[i])
    ensures Pieces(Join(xs, "|")) == xs
  {
    SplitJoin(xs, '|');
    forall i | 0 <= i < |xs|
      ensures Trim(xs[i]) == xs[i]
    {
      TrimOfTrimmed(xs[i]);
    }
  }

  // ---------------------------------------------------------------------------
  // case mapping
  // ---------------------------------------------------------------------------

  /** The KELVIN SIGN, the one character outside ASCII that `toLowerCase`
      lower-cases to text made of ASCII letters alone. */
  const KelvinSign: char := '\U{212A}'

  /** `toLowerCase` of one character, for the ASCII letters and the Kelvin
      sign. Every other character that `toLowerCase` changes becomes text
      holding a character outside ASCII, so comparing the result with a lower-case ASCII word
      comes out as it does in JavaScript. */
  function LowerChar(ch: char): char {
    if 'A' <= ch <= 'Z' then (ch as int + 32) as char
    else if ch == KelvinSign then 'k'
    else ch
  }

  function UpperChar(ch: char): char {
    if 'a' <= ch <= 'z' then (ch as int - 32) as char else ch
  }

  /** `s.toLowerCase()` character by character, as `LowerChar` maps them. */
  function ToLower(s: string): (r: string)
    ensures |r| == |s|
  {
    seq(|s|, i requires 0 <= i < |s| => LowerChar(s[i]))
  }

  /** Lower-casing twice is lower-casing once, and no upper-case ASCII letter
      survives it. */
  lemma ToLowerIdempotent(s: string)
    ensures ToLower(ToLower(s)) == ToLower(s)
    ensures forall i :: 0 <= i < |s| ==> !('A' <= ToLower(s)[i] <= 'Z')
  {
  }

  // ---------------------------------------------------------------------------
  // numbers
  // ---------------------------------------------------------------------------

  predicate IsDecDigit(ch: char) {
    '0' <= ch <= '9'
  }

  predicate IsDigit(ch: char, hex: bool) {
    IsDecDigit(ch) || (hex && (('a' <= ch <= 'f') || ('A' <= ch <= 'F')))
  }

  function DigitValue(ch: char, hex: bool): (v: nat)
    requires IsDigit(ch, hex)
    ensures v < (if hex then 16 else 10)
  {
    if IsDecDigit(ch) then ch as int - '0' as int
    else if 'a' <= ch <= 'f' then ch as int - 'a' as int + 10
    else ch as int - 'A' as int + 10
  }

  /** The longest prefix of `s` made of digits of the radix. */
  function DigitPrefix(s: string, hex: bool): (r: string)
    ensures r <= s
    ensures forall i :: 0 <= i < |r| ==> IsDigit(r[i], hex)
    ensures |r| < |s| ==> !IsDigit(s[|r|], hex)
  {
    if s != [] && IsDigit(s[0], hex) then [s[0]] + DigitPrefix(s[1..], hex) else []
  }

  /** The value of a digit string, most significant digit first. */
  function Value(ds: string, hex: bool): nat
    requires forall i :: 0 <= i < |ds| ==> IsDigit(ds[i], hex)
  {
    if ds == [] then 0
    else Value(ds[..|ds| - 1], hex) * (if hex then 16 else 10) + DigitValue(ds[|ds| - 1], hex)
  }

  /** `parseInt(s)` with no radix argument, `None` standing for `NaN`:
      leading white space is skipped, one sign is allowed, a `0x`/`0X`
      prefix switches to hexadecimal, and the longest run of digits that
      follows is read; anything after it is ignored. */
  function ParseInt(s: string): Option<int>
  {
    var t := TrimStart(s);
    var u := if |t| > 0 && (t[0] == '-' || t[0] == '+') then t[1..] else t;
    match ParseMagnitude(u)
    case None => None
    case Some(v) => Some(if |t| > 0 && t[0] == '-' then -(v as int) else v as int)
  }

  /** The unsigned part of `parseInt`: an optional hexadecimal prefix and
      the longest run of digits after it. */
  function ParseMagnitude(u: string): Option<nat>
  {
    var hex := |u| >= 2 && u[0] == '0' && (u[1] == 'x' || u[1] == 'X');
    var ds := DigitPrefix(if hex then u[2..] else u, hex);
    if ds == [] then None else Some(Value(ds, hex))
  }

  function DecChar(d: nat): (ch: char)
    requires d < 10
    ensures IsDecDigit(ch) && DigitValue(ch, false) == d
  {
    ('0' as int + d) as char
  }

  /** Decimal digits of a natural number, no leading zero. */
  function NatToString(n: nat): (r: string)
    ensures |r| >= 1
    ensures forall i :: 0 <= i < |r| ==> IsDecDigit(r[i])
    ensures r[0] == '0' ==> n == 0 && |r| == 1
  {
    if n < 10 then [DecChar(n)] else NatToString(n / 10) + [DecChar(n % 10)]
  }

  /** An integer as a template literal renders it. */
  function IntToString(n: int): string
  {
    if n < 0 then "-" + NatToString(-n) else NatToString(n)
  }

  lemma {:induction false} ValueOfNatToString(n: nat)
    ensures Value(NatToString(n), false) == n
  {
    if n >= 10 {
      ValueOfNatToString(n / 10);
      var r := NatToString(n);
      assert r[..|r| - 1] == NatToString(n / 10);
    }
  }

  lemma {:induction false} DigitPrefixOfDigits(ds: string, rest: string, hex: bool)
    requires forall i :: 0 <= i < |ds| ==> IsDigit(ds[i], hex)
    requires rest == [] || !IsDigit(rest[0], hex)
    ensures DigitPrefix(ds + rest, hex) == ds
  {
    if ds != [] {
      assert (ds + rest)[1..] == ds[1..] + rest;
      DigitPrefixOfDigits(ds[1..], rest, hex);
    }
  }

  /** The digits of `m` followed by text that does not continue them
      are read back as `m`. */
  lemma ParseMagnitudeOfNat(m: nat, rest: string)
    requires rest == [] || (!IsDecDigit(rest[0]) && !(m == 0 && (rest[0] == 'x' || rest[0] == 'X')))
    ensures ParseMagnitude(NatToString(m) + rest) == Some(m)
  {
    var ds := NatToString(m);
    var u := ds + rest;
    ValueOfNatToString(m);
    DigitPrefixOfDigits(ds, rest, false);
    if |u| >= 2 && u[0] == '0' {
      assert |ds| == 1 && m == 0;
      assert u[1] == rest[0];
    }
  }

  /** `parseInt` reads back what the template literal wrote, even with
      trailing text after it, unless that text continues the number: another
      digit, or an `x` that turns a lone `0` into a hexadecimal prefix. */
  lemma ParseIntOfIntToString(n: int, rest: string)
    requires rest == [] || (!IsDecDigit(rest[0]) && !(n == 0 && (rest[0] == 'x' || rest[0] == 'X')))
    ensures ParseInt(IntToString(n) + rest) == Some(n)
  {
    var m: nat := if n < 0 then -n else n;
    var ds := NatToString(m);
    var u := ds + rest;
    ParseMagnitudeOfNat(m, rest);
    if n < 0 {
      SignedShape(n, rest);
      ParseIntNegative(u, m);
      assert -(m as int) == n;
    } else {
      assert IntToString(n) + rest == u;
      assert u[0] == ds[0];
      ParseIntUnsigned(u, m);
    }
  }

  lemma SignedShape(n: int, rest: string)
    requires n < 0
    ensures IntToString(n) + rest == "-" + (NatToString(-n) + rest)
  {
  }

  lemma TrimStartUnspaced(s: string)
    requires s != [] && !IsSpace(s[0])
    ensures TrimStart(s) == s
  {
  }

  lemma ParseIntNegative(u: string, m: nat)
    requires ParseMagnitude(u) == Some(m)
    ensures ParseInt("-" + u) == Some(-(m as int))
  {
    var s := "-" + u;
    TrimStartUnspaced(s);
    assert s[1..] == u;
  }

  lemma ParseIntUnsigned(u: string, m: nat)
    requires u != [] && IsDecDigit(u[0])
    requires ParseMagnitude(u) == Some(m)
    ensures ParseInt(u) == Some(m)
  {
    TrimStartUnspaced(u);
  }
}

=== FILE: wrappers.dfy ===
/** An optional value, and the answer of a parser or command: a value or
    the error it reports. */
module Wrappers {

  datatype Option<+T> = None | Some(value: T)

  datatype Result<+R, +E> = Ok(value: R) | Err(error: E)
}

=== FILE: xkcd.dfy ===
/** The `xkcd` command: what the argument asks for, whether a numbered
    comic exists, and how the comic's alt text becomes the embed footer. */
module Xkcd {
  import opened Wrappers
  import opened Text

  const Usage := "[latest | comicNumber]"

  /** Longest footer shown unchanged, and how much of a longer one is kept. */
  const FooterLimit := 2048
  const KeptLength := 2000

  /** What `argParser` hands to `run`. */
  datatype ComicArg = Random | Latest | Number(n: int)

  /** `argParser`: no input asks for a random comic, `latest` in any case
      for the newest one, and anything else must start like an integer. */
  function ParseArgs(input: string): (r: Result<ComicArg, string>)
    ensures input == [] ==> r == Ok(Random)
    ensures input != [] && ToLower(input) == "latest" ==> r == Ok(Latest)
    ensures r.Ok? && r.value.Number? <==>
      input != [] && ToLower(input) != "latest" && ParseInt(input).Some?
    ensures r.Ok? && r.value.Number? ==> ParseInt(input) == Some(r.value.n)
    ensures r.Err? <==> input != [] && ToLower(input) != "latest" && ParseInt(input).None?
    ensures r.Err? ==> r.error == "Usage: " + Usage
  {
    if input == [] then Ok(Random)
    else if ToLower(input) == "latest" then Ok(Latest)
    else match ParseInt(input)
      case None => Err("Usage: " + Usage)
      case Some(n) => Ok(Number(n))
  }

  /** A comic number written out asks for that comic. */
  lemma ParseArgsOfNumber(n: int)
    ensures ParseArgs(IntToString(n)) == Ok(Number(n))
  {
    ParseIntOfIntToString(n, "");
    assert IntToString(n) + "" == IntToString(n);
    var s := IntToString(n);
    assert s[0] == '-' || IsDecDigit(s[0]);
    assert ToLower(s)[0] == s[0];
  }

  /** What `run` does with the argument once it knows the newest comic's
      number. */
  datatype Fetch = NotFound(message: string) | FetchLatest | FetchRandom | FetchNumber(n: int)

  function Choose(arg: ComicArg, latestNum: int): (f: Fetch)
    ensures f.NotFound? <==> arg.Number? && (arg.n < 1 || arg.n > latestNum)
    ensures f.NotFound? ==> f.message == "Comic " + IntToString(arg.n) + " does not exists."
    ensures f.FetchNumber? <==> arg.Number? && 1 <= arg.n <= latestNum
    ensures f.FetchNumber? ==> f.n == arg.n
    ensures f.FetchLatest? <==> arg.Latest?
  {
    match arg
    case Latest => FetchLatest
    case Random => FetchRandom
    case Number(n) =>
      if n < 1 || n > latestNum then NotFound("Comic " + IntToString(n) + " does not exists.")
      else FetchNumber(n)
  }

  // ---------------------------------------------------------------------------
  // the footer text
  // ---------------------------------------------------------------------------

  /** The fields of a comic record the embed uses. */
  datatype Comic = Comic(num: int, alt: string, transcript: string, img: string)

  /** `comic.alt || comic.transcript`. */
  function DescriptionSource(comic: Comic): (s: string)
    ensures comic.alt != [] ==> s == comic.alt
    ensures comic.alt == [] ==> s == comic.transcript
  {
    if comic.alt != [] then comic.alt else comic.transcript
  }

  /** `s` holds `c` twice in a row. */
  predicate HasPair(s: string, c: char) {
    exists i :: 0 <= i < |s| - 1 && s[i] == c && s[i + 1] == c
  }

  /** `s.replace(/cc/g, 'c')`: every non-overlapping pair of `c`, scanning
      from the left, becomes one `c`. */
  function Undouble(s: string, c: char): (r: string)
    ensures |r| <= |s|
  {
    if |s| >= 2 && s[0] == c && s[1] == c then [c] + Undouble(s[2..], c)
    else if s == [] then []
    else [s[0]] + Undouble(s[1..], c)
  }

  /** Text without a doubled `c` is left alone. */
  lemma {:induction false} UndoubleNoPair(s: string, c: char)
    requires !HasPair(s, c)
    ensures Undouble(s, c) == s
  {
    if s != [] {
      assert !(|s| >= 2 && s[0] == c && s[1] == c);
      UndoubleNoPair(s[1..], c);
    }
  }

  /** The six replacements of `createComicEmbed`, in its order. */
  function Clean(s: string): (r: string)
    ensures |r| <= |s|
  {
    Undouble(Undouble(Undouble(Undouble(Undouble(Undouble(s, '{'), '}'), '['), ']'), '<'), '>')
  }

  /** A description without doubled brackets is shown as it is. */
  lemma CleanUnchanged(s: string)
    requires forall c :: c in Brackets ==> !HasPair(s, c)
    ensures Clean(s) == s
  {
    UndoubleNoPair(s, '{');
    UndoubleNoPair(s, '}');
    UndoubleNoPair(s, '[');
    UndoubleNoPair(s, ']');
    UndoubleNoPair(s, '<');
    UndoubleNoPair(s, '>');
  }

  const Brackets: set<char> := {'{', '}', '[', ']', '<', '>'}

  /** Reference inverse of the cleaning: every character of `cs` written
      twice. */
  function Double(t: string, cs: set<char>): string {
    if t == [] then []
    else (if t[0] in cs then [t[0], t[0]] else [t[0]]) + Double(t[1..], cs)
  }

  /** Undoubling one of the doubled characters undoes just that doubling. */
  lemma {:induction false} UndoubleDouble(t: string, cs: set<char>, c: char)
    requires c in cs
    ensures Undouble(Double(t, cs), c) == Double(t, cs - {c})
  {
    if t != [] {
      var rest := Double(t[1..], cs);
      var x := t[0];
      if x == c {
        calc {
          Undouble(Double(t, cs), c);
          Undouble([c, c] + rest, c);
          { UndoublePair(rest, c); }
          [c] + Undouble(rest, c);
          { UndoubleDouble(t[1..], cs, c); }
          [c] + Double(t[1..], cs - {c});
          Double(t, cs - {c});
        }
      } else if x in cs {
        calc {
          Undouble(Double(t, cs), c);
          { assert Double(t, cs) == [x] + ([x] + rest); }
          Undouble([x] + ([x] + rest), c);
          { UndoubleOther(x, [x] + rest, c); UndoubleOther(x, rest, c); }
          [x] + ([x] + Undouble(rest, c));
          { UndoubleDouble(t[1..], cs, c); }
          [x] + ([x] + Double(t[1..], cs - {c}));
          { assert x in cs - {c}; }
          Double(t, cs - {c});
        }
      } else {
        calc {
          Undouble(Double(t, cs), c);
          Undouble([x] + rest, c);
          { UndoubleOther(x, rest, c); }
          [x] + Undouble(rest, c);
          { UndoubleDouble(t[1..], cs, c); }
          [x] + Double(t[1..], cs - {c});
          Double(t, cs - {c});
        }
      }
    }
  }

  lemma UndoublePair(rest: string, c: char)
    ensures Undouble([c, c] + rest, c) == [c] + Undouble(rest, c)
  {
    assert ([c, c] + rest)[2..] == rest;
  }

  lemma UndoubleOther(x: char, rest: string, c: char)
    requires x != c
    ensures Undouble([x] + rest, c) == [x] + Undouble(rest, c)
  {
    assert ([x] + rest)[1..] == rest;
  }

  lemma {:induction false} DoubleNothing(t: string)
    ensures Double(t, {}) == t
  {
    if t != [] {
      DoubleNothing(t[1..]);
    }
  }

  /** Cleaning undoes the doubling of every bracket character: the text an
      author meant is recovered from the text with its brackets doubled. */
  lemma CleanDouble(t: string)
    ensures Clean(Double(t, Brackets)) == t
  {
    var s0 := Brackets;
    UndoubleDouble(t, s0, '{');
    var s1 := s0 - {'{'};
    UndoubleDouble(t, s1, '}');
    var s2 := s1 - {'}'};
    UndoubleDouble(t, s2, '[');
    var s3 := s2 - {'['};
    UndoubleDouble(t, s3, ']');
    var s4 := s3 - {']'};
    UndoubleDouble(t, s4, '<');
    var s5 := s4 - {'<'};
    UndoubleDouble(t, s5, '>');
    assert s5 - {'>'} == {};
    DoubleNothing(t);
  }

  /** A cleaned description over 2048 characters keeps its first 2000 and
      gains `...`; a shorter one is kept whole. */
  function Truncate(d: string): (f: string)
    ensures |f| <= FooterLimit
    ensures |d| <= FooterLimit ==> f == d
    ensures |d| > FooterLimit ==> |f| == KeptLength + 3 && f[..KeptLength] == d[..KeptLength]
    ensures |d| > FooterLimit ==> f[KeptLength..] == "..."
  {
    if |d| > FooterLimit then d[..KeptLength] + "..." else d
  }

  /** The parts of the comic embed this model covers. */
  datatype ComicEmbed = ComicEmbed(description: string, footer: string, image: string)

  function CreateComicEmbed(comic: Comic): (e: ComicEmbed)
    ensures |e.footer| <= FooterLimit
    ensures e.image == comic.img
  {
    ComicEmbed("[View on xkcd.com](https://xkcd.com/" + IntToString(comic.num) + "/)",
               Truncate(Clean(DescriptionSource(comic))),
               comic.img)
  }
  /** The footer of a comic whose text came with its brackets doubled is
      the text the author meant, cut to 2000 characters plus `...` when it
      is longer than 2048. */
  lemma FooterOfDoubled(comic: Comic, meant: string)
    requires DescriptionSource(comic) == Double(meant, Brackets)
    ensures CreateComicEmbed(comic).footer == Truncate(meant)
    ensures |meant| <= FooterLimit ==> CreateComicEmbed(comic).footer == meant
  {
    CleanDouble(meant);
  }

  /** A short description with no doubled bracket is the footer as it is. */
  lemma FooterOfPlain(comic: Comic)
    requires forall c :: c in Brackets ==> !HasPair(DescriptionSource(comic), c)
    requires |DescriptionSource(comic)| <= FooterLimit
    ensures CreateComicEmbed(comic).footer == DescriptionSource(comic)
  {
    CleanUnchanged(DescriptionSource(comic));
  }
}
